=== FILE: README.md ===
# Duckit client core in Dafny

Duckit is an Android client for a duck-picture feed. Users browse posts and up- or
down-vote them, sign in or sign up, and submit new posts. This project models the
app's non-UI core as pure Dafny functions over immutable values:

- **the post repository**: each call becomes one `Result`. Listing posts drops later
  posts whose image repeats an earlier one.
- **the session store**: one token slot.
- **the navigation manager**: one "current destination" cell.
- **the four view models**:
  - the authentication screen, with its view state and events;
  - the new-post screen, with its image-URL validation and submission guard;
  - the current post gallery;
  - the earlier post list.
- **the first-generation `DuckitViewModel`**: it logs in, falls back to sign-up,
  reloads the feed after a vote, and logs out.
- **the upvote motivator**: it picks an encouragement message from the vote count.

## How the app is modelled

- **Events and asynchronous work.** An event handler is a function. It returns the
  new state together with the request it launches (`AuthStep`, `GalleryStep`,
  `DuckitStep`, …).
- **Results.** A result arriving is a second function. It takes the Kotlin `Result`
  as an `Outcome<T>` (success value, or failure with an optional message). Between
  the two calls the state may change; the completion functions take whatever state
  is current then.
- **Repository calls.** A repository operation takes an `ApiCall<T>`: the API either
  returned a value or threw. The operation emits a list of outcomes, and the
  contracts say that list has exactly one element.
- **Services as values.** The session store and the navigator are plain values held
  next to the view state. An action that saves a token or navigates returns the
  updated store or navigator.
- **Platform predicates and randomness.** These are parameters:
  - the email validator, as `isValidEmail: string -> bool`;
  - `Patterns.WEB_URL`, as `isWebUrl: string -> bool`;
  - the random choice among five messages, as an index `pick`.
- **Text.** Kotlin's `isBlank`, `endsWith(…, ignoreCase = true)`, `contains` and
  `Int.toString` are written out in module `Text`:
  - the desktop JVM's whitespace set;
  - the JVM's case-insensitive character comparison, which compares upper cases, then
    lower cases of the upper cases. Besides ASCII, this includes the four characters
    whose case maps into ASCII: dotless ı, long ſ, dotted İ and the Kelvin sign;
  - substring search;
  - decimal rendering.
- **Deduplication.** `distinctBy { it.image }` is a method with a seen-set loop, like
  Kotlin's. It is proved equal to a reference definition, `FirstOccurrences`: the
  posts that are the first in the list to carry their image. All feed properties
  are proved about that reference.

## Behaviour of the code worth knowing (the model follows the code)

- **`isAuthenticated`.** A successful log-in saves the token, records the response
  and navigates to the post list. It never sets `isAuthenticated`
  (`Auth.AuthenticatedFlagNeverChanges`).
- **Who decides whether the email error shows.** The state class's
  `shouldShowEmailError` is commented out in the source; only the state tests call
  it. The auth screen keeps its own `isEmailError` flag, set on every keystroke
  from the validator, and never reads the view model's `isEmailError`,
  `isEmailFocused` or `showEmailError`. `Auth.ShouldShowEmailError` models the
  commented-out predicate the tests describe, over the flags the view model
  maintains; the statements below are about that predicate, not about the screen.
- **Email error on an empty field.** When an empty email field loses focus, the view
  model still sets `isEmailError` to the validator's verdict on `""`. Only
  `showEmailError` (false for an empty field) keeps `shouldShowEmailError` false
  (`Auth.LostFocusShowsErrorIff`).
- **Typing in the email field.** Typing does not clear `isEmailError` or
  `showEmailError`. It sets `isEmailFocused`, which makes `shouldShowEmailError`
  false (`Auth.TypingHidesEmailError`).
- **Navigation history.** Navigation is one cell with no back stack. `NavDestination`
  declares three destinations, but the manager starts at a fourth, `PostListScreen`,
  which the auth screen also navigates to. The model adds it, with no route string.
  The new-post screen's back action calls a `navigateBack` the manager does not
  define; it is modelled as the effect `NavigateBackRequested`.
- **New-post submission.**
  - It ignores the server. Once a token is stored, the screen invokes the use case
    with the literal `"user_token"`. It never collects the returned flow and reports
    success with the form's contents.
  - The submit guard reads neither `isSubmitting` nor `postSuccess`. Submitting the
    unchanged form again after a completed post posts it again.
- **Earlier post list.** It sends every vote with the literal token `"token"`.
- **Gallery state type.** The gallery's state class declares its list as `Post`s,
  while the view model stores `PostViewState` cards in it. The model follows the
  view model. The view model never writes the class's other fields. The gallery
  screen reads `isLoggedIn`, `selectedPostId` and `showLoginPrompt` from it, so as
  written it always sees their defaults. The screen also calls an `onEvent` and
  reads a `showVoteError` that this view model does not have. The model follows the
  view model's own separate cells.
- **First-generation fallback.** A log-in that fails with a message containing
  `"404"` or `"account not found"` is retried as a sign-up with the same
  credentials.

## Model

| member | source | states |
|---|---|---|
| Common.FilterNot | app/src/main/java/com/chrisrich/duckit/ui/screens/postgallery/PostGalleryViewModel.kt:129 | `filterNot` keeps only elements of the list the predicate rejects, keeps every such element, and never grows the list |
| Common.FilterNotCounts | app/src/main/java/com/chrisrich/duckit/ui/screens/postgallery/PostGalleryViewModel.kt:129 | `filterNot` keeps each element the predicate rejects exactly as many times as it occurs, and no copy of any other |
| Common.FilterNotIsSubsequence | app/src/main/java/com/chrisrich/duckit/ui/screens/postlist/PostGalleryViewModel.kt:98 | what `filterNot` keeps is in the original order (a subsequence) |
| Common.FilterNotIdempotent | app/src/main/java/com/chrisrich/duckit/ui/screens/postlist/PostGalleryViewModel.kt:98 | filtering twice with the same predicate is filtering once |
| Distinct.DistinctByImage | app/src/main/java/com/chrisrich/duckit/data/repository/PostRepository.kt:34 | the one-pass seen-set deduplication computes exactly the first post of each image, in input order |
| Distinct.KeptPostsAreFirstOccurrences | app/src/main/java/com/chrisrich/duckit/data/repository/PostRepository.kt:34 | every kept post is, where it stands in the input, the first to carry its image |
| Distinct.FirstOccurrenceIsKept | app/src/main/java/com/chrisrich/duckit/data/repository/PostRepository.kt:34 | every post that is the first with its image is kept |
| Distinct.FirstOccurrencesKeepImages | app/src/main/java/com/chrisrich/duckit/data/repository/PostRepository.kt:34 | deduplication neither adds nor loses an image |
| Distinct.FirstOccurrencesDistinct | app/src/main/java/com/chrisrich/duckit/data/repository/PostRepository.kt:34 | no two kept posts share an image |
| Distinct.FirstOccurrencesSubsequence | app/src/main/java/com/chrisrich/duckit/data/repository/PostRepository.kt:34 | kept posts keep their relative order |
| Distinct.DistinctIsFixpoint | app/src/main/java/com/chrisrich/duckit/data/repository/PostRepository.kt:34 | a feed with distinct images comes back unchanged |
| Distinct.FirstOccurrencesIdempotent | app/src/main/java/com/chrisrich/duckit/data/repository/PostRepository.kt:34 | deduplicating twice is deduplicating once |
| Distinct.EarlierPostWins | app/src/test/java/com/chrisrich/duckit/screens/auth/ui/PostRepositoryTest.kt:30-50 | of `[post1, post2, post3]` with post3 repeating post1's image, exactly `[post1, post2]` remain |
| PostRepository.Emit | app/src/main/java/com/chrisrich/duckit/data/repository/PostRepository.kt:48-50 | a repository flow emits exactly one result: a success with the response iff the API returned, else a failure with the thrown error |
| PostRepository.GetPosts | app/src/main/java/com/chrisrich/duckit/data/repository/PostRepository.kt:32-36 | one emission; on success the feed is exactly the first post per image, in the API's order (distinct images, order, image set and every first post follow by the `Distinct` lemmas); on an exception, that exception unchanged |
| PostRepository.Upvote | app/src/main/java/com/chrisrich/duckit/data/repository/PostRepository.kt:48-50 | one emission carrying the API's vote response or its exception |
| PostRepository.Downvote | app/src/main/java/com/chrisrich/duckit/data/repository/PostRepository.kt:62-64 | one emission carrying the API's vote response or its exception |
| PostRepository.NewPost | app/src/main/java/com/chrisrich/duckit/data/repository/PostRepository.kt:76-78 | one emission carrying the API's creation response or its exception |
| PostRepository.EmitRoundTrip | app/src/test/java/com/chrisrich/duckit/screens/auth/ui/PostRepositoryTest.kt:52-64 | reading the emission back recovers the API call exactly: the same exception on failure, the same response on success |
| Session.Fresh | app/src/main/java/com/chrisrich/duckit/utils/SessionManager.kt:51-53 | with nothing saved, reading the token (`Session.GetAuthToken`, `getAuthToken`) gives null |
| Session.SaveAuthToken | app/src/main/java/com/chrisrich/duckit/utils/SessionManager.kt:40-42 | after saving, reading gives the saved token |
| Session.ClearAuthToken | app/src/main/java/com/chrisrich/duckit/utils/SessionManager.kt:60-62 | after clearing, reading gives null |
| Session.SaveOverwrites | app/src/main/java/com/chrisrich/duckit/utils/SessionManager.kt:29 | one key: a second save replaces the first entirely |
| Session.ClearIdempotent | app/src/main/java/com/chrisrich/duckit/utils/SessionManager.kt:60-62 | clearing an empty store changes nothing; clearing twice is clearing once |
| Session.TokenIsTheWholeState | app/src/main/java/com/chrisrich/duckit/utils/SessionManager.kt:29 | stores that return the same token are the same store |
| Navigation.Route | app/src/main/java/com/chrisrich/duckit/navigation/NavDestination.kt:3-7 | the three declared destinations have routes, `PostListScreen` has none |
| Navigation.RoutesDistinct | app/src/main/java/com/chrisrich/duckit/navigation/NavDestination.kt:3-7 | a route identifies its destination |
| Navigation.Initial | app/src/main/java/com/chrisrich/duckit/navigation/NavigationManager.kt:8 | the manager starts at `PostListScreen` |
| Navigation.Navigate | app/src/main/java/com/chrisrich/duckit/navigation/NavigationManager.kt:11-13 | after navigating, the current destination is the requested one |
| Navigation.LastNavigateWins | app/src/main/java/com/chrisrich/duckit/navigation/NavigationManager.kt:11-13 | two navigations in a row end where the second goes |
| Navigation.NavigateIdempotent | app/src/main/java/com/chrisrich/duckit/navigation/NavigationManager.kt:11-13 | navigating to the same destination twice is navigating there once |
| Navigation.NavigateForgetsHistory | app/src/main/java/com/chrisrich/duckit/navigation/NavigationManager.kt:7-14 | no back stack: the result of a navigation does not depend on the earlier destination |
| Auth.DefaultState | app/src/main/java/com/chrisrich/duckit/ui/screens/auth/AuthViewState.kt:25-36 | every field of the opening state at its declared default |
| Auth.EmailErrorNeedsAllThreeFlags | app/src/main/java/com/chrisrich/duckit/ui/screens/auth/AuthViewState.kt:47-49 | the (commented-out) `shouldShowEmailError`, modelled as `Auth.ShouldShowEmailError`, holds iff the address is invalid, the field is unfocused, and showing is enabled; each flag alone falsifies it |
| Auth.AuthEventPayloads | app/src/test/java/com/chrisrich/duckit/screens/auth/ui/AuthEventTest.kt:70-100 | events hold their payload, and two events are equal iff they have the same payload |
| Auth.Create | app/src/main/java/com/chrisrich/duckit/ui/screens/auth/AuthViewModel.kt:65 | the screen opens with the default state and the given services |
| Auth.OnEvent | app/src/main/java/com/chrisrich/duckit/ui/screens/auth/AuthViewModel.kt:68-107 | per event, exactly which fields change; only log-in and sign-up launch a request, built from the credentials typed so far; no event touches the session; only NavigateBack moves, to the post list; `Auth.StartAuth` (`performAuthAction` up to the call) raises loading and clears the error |
| Auth.CompleteAuth | app/src/main/java/com/chrisrich/duckit/ui/screens/auth/AuthViewModel.kt:109-149 | loading always stops; success saves the returned token, records the response and goes to the post list; failure shows the message and leaves session and destination alone; no other field changes |
| Auth.ToggleTwiceIsIdentity | app/src/main/java/com/chrisrich/duckit/ui/screens/auth/AuthViewModel.kt:78-80 | toggling the mode twice restores the view model |
| Auth.TypingHidesEmailError | app/src/main/java/com/chrisrich/duckit/ui/screens/auth/AuthViewModel.kt:70-72 | after typing in the email field, the (commented-out) `shouldShowEmailError` is false |
| Auth.LostFocusShowsErrorIff | app/src/main/java/com/chrisrich/duckit/ui/screens/auth/AuthViewModel.kt:90-101 | after the email field loses focus, the (commented-out) `shouldShowEmailError` holds iff the address is non-empty and invalid |
| Auth.LostFocusIdempotent | app/src/main/java/com/chrisrich/duckit/ui/screens/auth/AuthViewModel.kt:90-101 | losing focus twice is losing focus once |
| Auth.AuthSucceeds | app/src/test/java/com/chrisrich/duckit/screens/auth/ui/AuthViewModelTest.kt:137-177 | log-in or sign-up then success: the request carries the typed credentials, the session holds the returned token, no error, not loading, on the post list |
| Auth.AuthFails | app/src/test/java/com/chrisrich/duckit/screens/auth/ui/AuthViewModelTest.kt:179-205 | log-in or sign-up then failure: the message is shown, loading stops, session and destination unchanged |
| Auth.AuthenticatedFlagNeverChanges | app/src/main/java/com/chrisrich/duckit/ui/screens/auth/AuthViewModel.kt:117-121 | no event and no result changes `isAuthenticated` |
| NewPost.DefaultState | app/src/main/java/com/chrisrich/duckit/ui/screens/newpost/NewPostViewModel.kt:27-37 | the empty form: every field at its declared default |
| NewPost.ValidateImageUrl | app/src/main/java/com/chrisrich/duckit/ui/screens/newpost/NewPostViewModel.kt:94-113 | blank URLs get "cannot be empty", non-web URLs "invalid format", web URLs are accepted iff they end, ignoring case, in `.jpg`, `.jpeg`, `.png`, `.webp` or `.gif`, else "unsupported format" |
| NewPost.AcceptedUrlShape | app/src/main/java/com/chrisrich/duckit/ui/screens/newpost/NewPostViewModel.kt:91-113 | every accepted URL is a non-blank web URL with a dot four or five characters from the end and a last letter g, f or p in either case |
| NewPost.UppercaseExtensionAccepted | app/src/main/java/com/chrisrich/duckit/ui/screens/newpost/NewPostViewModel.kt:105-106 | extensions in capitals are accepted |
| NewPost.DotlessIMatchesGif | app/src/main/java/com/chrisrich/duckit/ui/screens/newpost/NewPostViewModel.kt:105-106 | because comparison goes through upper case, a URL ending in ".g" + dotless ı + "f" passes as a GIF |
| NewPost.OnEvent | app/src/main/java/com/chrisrich/duckit/ui/screens/newpost/NewPostViewModel.kt:48-85 | per event, exactly which fields change; a new URL is validated at once and must be reloaded; submit is refused with a message unless headline and URL are non-blank and the image loaded, and otherwise launches a request with the form's headline and URL; the field events and reset have no effect, back only asks to navigate back, and only submit launches anything |
| NewPost.CompleteSubmit | app/src/main/java/com/chrisrich/duckit/ui/screens/newpost/NewPostViewModel.kt:126-153 | submitting always ends; an exception gives "failed to post"; no stored token gives "authentication required"; a stored token gives success with the submitted post and a use-case call with the literal `"user_token"` |
| NewPost.ResetFormForgetsEverything | app/src/main/java/com/chrisrich/duckit/ui/screens/newpost/NewPostViewModel.kt:77-81 | reset yields the empty form from any state |
| NewPost.SubmitWithTokenSucceeds | app/src/main/java/com/chrisrich/duckit/ui/screens/newpost/NewPostViewModel.kt:124-138 | a guarded-through submission with a stored token ends in success with the form's post, whatever the server would say |
| NewPost.ResubmitAfterSuccessPostsAgain | app/src/main/java/com/chrisrich/duckit/ui/screens/newpost/NewPostViewModel.kt:115-138 | after a submission has completed with success, submitting the same form again launches the same request again |
| NewPost.GuardLaunchesNothing | app/src/main/java/com/chrisrich/duckit/ui/screens/newpost/NewPostViewModel.kt:117-122 | a refused submission launches nothing and only sets the message |
| PostGallery.ToViewState | app/src/main/java/com/chrisrich/duckit/ui/screens/postgallery/PostGalleryViewModel.kt:194-200 | a card shows the post's fields with its upvotes as votes, idle and without error |
| PostGallery.Create | app/src/main/java/com/chrisrich/duckit/ui/screens/postgallery/PostGalleryViewModel.kt:28-48 | the screen opens empty and loading, logged in iff a token is stored, no prompt or dialog, holding the given session and navigator, and fetches with the stored token |
| PostGallery.GetPostList | app/src/main/java/com/chrisrich/duckit/ui/screens/postgallery/PostGalleryViewModel.kt:50-55 | refreshes the logged-in flag from the store, starts loading, clears the error, fetches with the stored token; nothing else changes |
| PostGallery.OnPostsLoaded | app/src/main/java/com/chrisrich/duckit/ui/screens/postgallery/PostGalleryViewModel.kt:56-71 | loading stops; success shows one idle card per post in order, with the post's id, headline, image, author and upvote count; failure keeps the cards and shows the message or "Failed to load posts" |
| PostGallery.LoadRoundTrip | app/src/main/java/com/chrisrich/duckit/ui/screens/postgallery/PostGalleryViewModel.kt:50-73 | after a fetch and its result loading has ended; success shows one card per received post and no error; failure keeps the earlier cards and always shows an error |
| PostGallery.ShowPostDialog | app/src/main/java/com/chrisrich/duckit/ui/screens/postgallery/PostGalleryViewModel.kt:75-78 | the dialog opens on the given post; nothing else changes |
| PostGallery.DismissPostDialog | app/src/main/java/com/chrisrich/duckit/ui/screens/postgallery/PostGalleryViewModel.kt:80-83 | the dialog closes and forgets the post; nothing else changes |
| PostGallery.DismissUndoesShow | app/src/main/java/com/chrisrich/duckit/ui/screens/postgallery/PostGalleryViewModel.kt:75-83 | showing then dismissing leaves no trace of the shown post |
| PostGallery.UpdatePostState | app/src/main/java/com/chrisrich/duckit/ui/screens/postgallery/PostGalleryViewModel.kt:134-151 | cards with the id take the given votes and loading flag when present and always the given error; every other card is untouched; the length is kept |
| PostGallery.UpdateKeepsIds | app/src/main/java/com/chrisrich/duckit/ui/screens/postgallery/PostGalleryViewModel.kt:141-149 | updating never changes which cards exist or their order |
| PostGallery.RemoveFrom | app/src/main/java/com/chrisrich/duckit/ui/screens/postgallery/PostGalleryViewModel.kt:127-132 | removal keeps exactly the cards with other ids, each as many times as before, in order; `PostGallery.RemovePost` applies it to the view model's cards and changes nothing else |
| PostGallery.RemoveAfterUpdate | app/src/main/java/com/chrisrich/duckit/ui/screens/postgallery/PostGalleryViewModel.kt:127-151 | removing a post after updating it equals just removing it |
| PostGallery.RemoveAbsentIsNoop | app/src/main/java/com/chrisrich/duckit/ui/screens/postgallery/PostGalleryViewModel.kt:127-132 | removing an id no card has changes nothing |
| PostGallery.StartVote | app/src/main/java/com/chrisrich/duckit/ui/screens/postgallery/PostGalleryViewModel.kt:85-89 | the voted card starts loading and loses its error, and the vote goes out with the given token |
| PostGallery.OnVoteResult | app/src/main/java/com/chrisrich/duckit/ui/screens/postgallery/PostGalleryViewModel.kt:89-124 | the voted card stops loading; success takes the server's count and clears the error; failure keeps the count and shows the message or the fallback `PostGallery.VoteFailed` gives, "Failed to upvote"/"Failed to downvote" |
| PostGallery.VoteRoundTrip | app/src/main/java/com/chrisrich/duckit/ui/screens/postgallery/PostGalleryViewModel.kt:85-125 | after a vote and its result, other cards are as before; the voted card is idle with its old count and an error on failure, or the server's count and no error on success |
| PostGallery.OnVoteClicked | app/src/main/java/com/chrisrich/duckit/ui/screens/postgallery/PostGalleryViewModel.kt:164-177 | the dialog closes and the logged-in flag is refreshed; a missing or empty token raises the vote login prompt and sends nothing; otherwise the vote goes out with the stored token; loading, error, session and navigator are untouched |
| PostGallery.EmptyTokenLoggedInButPrompted | app/src/main/java/com/chrisrich/duckit/ui/screens/postgallery/PostGalleryViewModel.kt:167-174 | an empty stored token sets the logged-in flag, yet voting still asks to log in |
| PostGallery.OnFabClicked | app/src/main/java/com/chrisrich/duckit/ui/screens/postgallery/PostGalleryViewModel.kt:153-162 | the dialog closes; logged in: go to the new-post screen; otherwise raise the post login prompt and stay; nothing else changes |
| PostGallery.DismissLoginPrompt | app/src/main/java/com/chrisrich/duckit/ui/screens/postgallery/PostGalleryViewModel.kt:190-192 | the prompt closes; nothing else changes |
| PostGallery.NavigateToSignIn | app/src/main/java/com/chrisrich/duckit/ui/screens/postgallery/PostGalleryViewModel.kt:179-182 | the prompt closes and the auth screen opens; nothing else changes |
| PostGallery.FabPromptRoundTrip | app/src/main/java/com/chrisrich/duckit/ui/screens/postgallery/PostGalleryViewModel.kt:153-192 | for a logged-out user the button raises the post prompt; dismissing it restores the screen with the dialog closed, and following it opens the auth screen instead, with nothing else changed |
| PostGallery.LogOut | app/src/main/java/com/chrisrich/duckit/ui/screens/postgallery/PostGalleryViewModel.kt:184-188 | the token is gone, the flag is false, loading is on with no error, and the feed is fetched again with no token; the cards, prompt, dialog and navigator are untouched |
| PostGallery.LogOutThenPrompted | app/src/main/java/com/chrisrich/duckit/ui/screens/postgallery/PostGalleryViewModel.kt:153-188 | after logging out, a vote click sends nothing and raises the vote login prompt, and the floating button raises the post login prompt without navigating |
| PostList.Initial | app/src/main/java/com/chrisrich/duckit/ui/screens/postlist/PostGalleryViewModel.kt:16-20 | not loading, no list yet, no error |
| PostList.GetPostList | app/src/main/java/com/chrisrich/duckit/ui/screens/postlist/PostGalleryViewModel.kt:36-41 | starts loading, clears the error, fetches with the stored token |
| PostList.Create | app/src/main/java/com/chrisrich/duckit/ui/screens/postlist/PostGalleryViewModel.kt:32-40 | the screen opens loading with no list and no error, and fetches with the stored token |
| PostList.OnPostsLoaded | app/src/main/java/com/chrisrich/duckit/ui/screens/postlist/PostGalleryViewModel.kt:41-50 | loading stops; success stores the list as received; failure keeps the list and stores the (possibly absent) message |
| PostList.LoadRoundTrip | app/src/main/java/com/chrisrich/duckit/ui/screens/postlist/PostGalleryViewModel.kt:36-52 | after a fetch and its result loading has ended; success shows exactly the received list with no error; failure keeps the earlier list and shows the message |
| PostList.VotePost | app/src/main/java/com/chrisrich/duckit/ui/screens/postlist/PostGalleryViewModel.kt:54-62 | no stored token: "User not logged in" and nothing sent; otherwise the vote goes out with the literal token `"token"` and the state is untouched |
| PostList.OnVoteResult | app/src/main/java/com/chrisrich/duckit/ui/screens/postlist/PostGalleryViewModel.kt:62-71 | success hands the new count to the callback and changes no state; failure stores the message and does not call back |
| PostList.RemovePost | app/src/main/java/com/chrisrich/duckit/ui/screens/postlist/PostGalleryViewModel.kt:96-101 | an unloaded list stays unloaded; a loaded one keeps exactly the posts with other ids, each as many times as before, in order |
| PostList.RemoveIdempotent | app/src/main/java/com/chrisrich/duckit/ui/screens/postlist/PostGalleryViewModel.kt:96-101 | removing twice is removing once |
| PostList.VoteKeepsPosts | app/src/main/java/com/chrisrich/duckit/ui/screens/postlist/PostGalleryViewModel.kt:54-94 | voting never changes the list, whatever the session or result |
| PostList.VoteIgnoresStoredToken | app/src/main/java/com/chrisrich/duckit/ui/screens/postlist/PostGalleryViewModel.kt:62 | the vote request never carries a stored token other than the literal |
| Duckit.EmptyState | app/src/main/java/com/chrisrich/duckit/DuckitViewModel.kt:10-15 | every field of `UiState()` at its default |
| Duckit.GetTheDucks | app/src/main/java/com/chrisrich/duckit/DuckitViewModel.kt:36-40 | starts loading without clearing an earlier error and fetches the feed |
| Duckit.Create | app/src/main/java/com/chrisrich/duckit/DuckitViewModel.kt:23-34 | the UI state starts with the stored token and loading, and the feed is fetched |
| Duckit.OnPostsLoaded | app/src/main/java/com/chrisrich/duckit/DuckitViewModel.kt:41-50 | loading stops; success stores the feed, failure the message; the token is untouched |
| Duckit.LogIn | app/src/main/java/com/chrisrich/duckit/DuckitViewModel.kt:62-64 | sends the sign-in with the given credentials and changes nothing |
| Duckit.AcceptToken | app/src/main/java/com/chrisrich/duckit/DuckitViewModel.kt:66-69 | the token is stored and shown in the UI state |
| Duckit.OnLogInResult | app/src/main/java/com/chrisrich/duckit/DuckitViewModel.kt:64-81 | success stores the token; a failure whose message mentions "404" or "account not found" (`Duckit.AccountMissing`) signs up with the same credentials and changes nothing; any other failure shows the message |
| Duckit.StartSignUp | app/src/main/java/com/chrisrich/duckit/DuckitViewModel.kt:91-93 | sends the sign-up with the given credentials and changes nothing |
| Duckit.OnSignUpResult | app/src/main/java/com/chrisrich/duckit/DuckitViewModel.kt:93-104 | success stores and shows the token; failure shows the message and changes nothing else |
| Duckit.Logout | app/src/main/java/com/chrisrich/duckit/DuckitViewModel.kt:107-110 | the stored token is gone and the whole UI state, feed included, is reset |
| Duckit.Vote | app/src/main/java/com/chrisrich/duckit/DuckitViewModel.kt:112-115 | without a token in the UI state nothing is sent; otherwise the vote goes out with that token |
| Duckit.OnVoteResult | app/src/main/java/com/chrisrich/duckit/DuckitViewModel.kt:115-120 | success reloads the feed; failure shows the message |
| Duckit.TokenStaysInSync | app/src/main/java/com/chrisrich/duckit/DuckitViewModel.kt:31-34 | the UI state's token equals the stored token after construction and after every action and result |
| Duckit.NotFoundFallsBackToSignUp | app/src/main/java/com/chrisrich/duckit/DuckitViewModel.kt:70-73 | a log-in rejected with a message containing "404" becomes a sign-up with the same credentials |
| Duckit.FallbackSignUpStoresToken | app/src/main/java/com/chrisrich/duckit/DuckitViewModel.kt:70-104 | a log-in rejected as a missing account, then a successful sign-up, ends with the sign-up token stored and shown and no error recorded |
| Duckit.SilentFailureIsNotRetried | app/src/main/java/com/chrisrich/duckit/DuckitViewModel.kt:71-76 | a failure without a message is not retried |
| Duckit.LoggedOutCannotVote | app/src/main/java/com/chrisrich/duckit/DuckitViewModel.kt:107-123 | after logging out no vote is sent |
| Motivator.BucketOf | app/src/main/java/com/chrisrich/duckit/utils/AngelicUpVoteMotivator.kt:38-44 | zero, one to two, three to five, above five, and negative counts each select their own group, and only they do |
| Motivator.Templates | app/src/main/java/com/chrisrich/duckit/utils/AngelicUpVoteMotivator.kt:6-36 | every group of the `when` has five messages; a negative count has none |
| Motivator.TemplateSlots | app/src/main/java/com/chrisrich/duckit/utils/AngelicUpVoteMotivator.kt:6-36 | every message names the post, and every message for more than five votes also shows the count |
| Motivator.GenerateUpVoteMessage | app/src/main/java/com/chrisrich/duckit/utils/AngelicUpVoteMotivator.kt:5-45 | a negative count gets the fixed fallback; otherwise the message is one of its group's templates with headline and count filled in |
| Motivator.MessageNamesThePost | app/src/main/java/com/chrisrich/duckit/utils/AngelicUpVoteMotivator.kt:38-42 | whatever the random choice, a non-negative count's message contains the headline |
| Motivator.HighVotesShowTheCount | app/src/main/java/com/chrisrich/duckit/utils/AngelicUpVoteMotivator.kt:30-36 | with more than five votes, the message always contains the count in decimal |
| Motivator.RenderFillsSlots | app/src/main/java/com/chrisrich/duckit/utils/AngelicUpVoteMotivator.kt:7-35 | a filled-in template contains whatever is put in each of its slots |
| Text.ContainsIffOccurs | app/src/main/java/com/chrisrich/duckit/DuckitViewModel.kt:71 | `contains` holds iff the text occurs at some position |
| Text.DecimalRoundTrip | app/src/main/java/com/chrisrich/duckit/utils/AngelicUpVoteMotivator.kt:15 | the decimal rendering of a count reads back as that count |

## Left out

- User interface, dependency injection, Retrofit, HTTP and logging are not modelled. The API is the `ApiCall` outcome passed to the repository. The token and post id the repository forwards to the API are not recorded.
- The use-case classes are not part of this model. Each forwards to one repository call, so view models take the repository's `Outcome` directly.
- `NewPost.CompleteSubmit`: the launched submission never suspends (it runs on the main dispatcher's immediate mode, reads the token synchronously and never collects the use case's cold flow), so the app finishes it before the next event. The model still splits it from `OnEvent`, so its states with `isSubmitting` set are never observable in the app.
- Coroutines are not modelled. Each launched request is a returned value, and its completion is a separate call on whatever state is current then. Interleavings, `collectLatest` cancellation and screen teardown are not modelled.
- SharedPreferences persistence and encryption are not modelled. The store is a value with one optional token.
- `Patterns.WEB_URL` and the email validator are opaque predicates. Their grammars are not modelled.
- `random()` is not modelled. It becomes the index `pick`, and contracts hold for every choice.
- Vote counts are unbounded integers. The modelled view models and repository only store, compare and print Kotlin `Int`s and do no arithmetic on them, so 32-bit wrap-around cannot arise there. The UI components' optimistic +1/-1 on a displayed count is out of scope.
- Kotlin strings are UTF-16 sequences. The model uses Dafny characters. Surrogate pairs are not modelled.
- `Text.UppercaseChar`: case folding covers only ASCII and the four characters whose case maps into ASCII. Other letters compare as themselves. This is exact for comparisons against the ASCII extension list, and weaker in general.
- The gallery's `PostGalleryViewState` fields beyond the list, `PostGalleryEvent`, and the stale `NewPostViewState` class in its own file are not modelled. The view model never writes or handles them; the gallery screen reads them and so sees only their defaults, which the model does not cover because the screen is not modelled.
- The first-generation repository is not part of this model. It has no deduplication. `Duckit` takes its outcomes directly.
- String resources (`R.string.*`) become the `NewPost.Message` and `PostGallery.LoginReason` values. The resource texts are not modelled.
- `Text.IsWhitespace`: the desktop JVM's whitespace set is what is modelled. Android's runtime may also count U+180E (Mongolian vowel separator) as whitespace; the model does not.

=== FILE: auth.dfy ===
/** The authentication screen: its view state, its events, and the reducer that
    applies them, together with the effect a finished log-in or sign-up has on the
    view state, the session store and the current destination. */
module Auth {
  import opened Common
  import opened Models
  import Session
  import Navigation

  /** The seven things the authentication screen can report. */
  datatype AuthEvent =
    | UpdateEmail(email: string)
    | UpdatePassword(password: string)
    | ToggleAuthMode
    | LogIn
    | SignUp
    | EmailLostFocus
    | NavigateBack

  datatype AuthViewState = AuthViewState(
    email: string,
    password: string,
    isLoading: bool,
    authResponse: Option<AuthResponse>,
    error: Option<string>,
    isSignUp: bool,
    isEmailError: bool,
    showEmailError: bool,
    isEmailFocused: bool,
    isAuthenticated: bool)

  /** The state the screen opens with. */
  function DefaultState(): (s: AuthViewState)
    ensures s.email == "" && s.password == ""
    ensures !s.isLoading && !s.isSignUp && !s.isAuthenticated
    ensures !s.isEmailError && !s.showEmailError && !s.isEmailFocused
    ensures s.authResponse == None && s.error == None
  {
    AuthViewState("", "", false, None, None, false, false, false, false, false)
  }

  /** The state class's `shouldShowEmailError`, which the source keeps commented out:
      the address was judged invalid, the field is unfocused, and showing was enabled.
      The auth screen does not consult it; it shows the error from a flag of its own. */
  predicate ShouldShowEmailError(s: AuthViewState) {
    s.isEmailError && !s.isEmailFocused && s.showEmailError
  }

  /** `ShouldShowEmailError` holds exactly when all three flags agree; each of them
      alone can falsify it. */
  lemma EmailErrorNeedsAllThreeFlags(s: AuthViewState)
    ensures !s.isEmailError ==> !ShouldShowEmailError(s)
    ensures s.isEmailFocused ==> !ShouldShowEmailError(s)
    ensures !s.showEmailError ==> !ShouldShowEmailError(s)
    ensures s.isEmailError && !s.isEmailFocused && s.showEmailError ==> ShouldShowEmailError(s)
  {
  }

  /** Events carry their payload unchanged, and two events are equal exactly when
      they are the same variant with equal payloads. */
  lemma AuthEventPayloads(a: string, b: string)
    ensures UpdateEmail(a).email == a && UpdatePassword(a).password == a
    ensures UpdateEmail(a) == UpdateEmail(b) <==> a == b
    ensures UpdatePassword(a) == UpdatePassword(b) <==> a == b
    ensures UpdateEmail(a) != UpdatePassword(b)
  {
  }

  /** Which request a log-in or sign-up event launched. */
  datatype AuthKind = LogInCall | SignUpCall

  datatype AuthCall = AuthCall(kind: AuthKind, request: AuthRequest)

  /** The screen's view model together with the two services it drives. */
  datatype AuthViewModel = AuthViewModel(
    state: AuthViewState,
    session: Session.Store,
    nav: Navigation.Navigator)

  /** The result of an event: the new view model and the request it launched, if any. */
  datatype AuthStep = AuthStep(vm: AuthViewModel, launched: Option<AuthCall>)

  function Create(session: Session.Store, nav: Navigation.Navigator): (vm: AuthViewModel)
    ensures vm.state == DefaultState() && vm.session == session && vm.nav == nav
  {
    AuthViewModel(DefaultState(), session, nav)
  }

  /** Starting a log-in or sign-up: the request is built from the fields as they are
      now, loading is raised and any previous error cleared. */
  function StartAuth(vm: AuthViewModel, kind: AuthKind): AuthStep {
    AuthStep(
      vm.(state := vm.state.(isLoading := true, error := None)),
      Some(AuthCall(kind, AuthRequest(vm.state.email, vm.state.password))))
  }

  /** `onEvent`, with the email validator passed in. No event touches the session. */
  function OnEvent(isValidEmail: string -> bool, vm: AuthViewModel, event: AuthEvent): (step: AuthStep)
    ensures step.vm.session == vm.session
    ensures !(event.LogIn? || event.SignUp?) <==> step.launched.None?
    ensures !event.NavigateBack? ==> step.vm.nav == vm.nav
    ensures event.UpdateEmail? ==>
      step.vm.state == vm.state.(email := event.email, isEmailFocused := true)
    ensures event.UpdatePassword? ==>
      step.vm.state == vm.state.(password := event.password)
    ensures event.ToggleAuthMode? ==>
      step.vm.state == vm.state.(isSignUp := !vm.state.isSignUp)
    ensures (event.LogIn? || event.SignUp?) ==>
      && step.vm.state == vm.state.(isLoading := true, error := None)
      && step.launched.value.request == AuthRequest(vm.state.email, vm.state.password)
      && (step.launched.value.kind == LogInCall <==> event.LogIn?)
    ensures event.EmailLostFocus? ==>
      step.vm.state == vm.state.(
        isEmailFocused := false,
        isEmailError := !isValidEmail(vm.state.email),
        showEmailError := vm.state.email != "")
    ensures event.NavigateBack? ==>
      step.vm.state == vm.state && step.vm.nav.current == Navigation.PostListScreen
  {
    match event
    case UpdateEmail(email) =>
      AuthStep(vm.(state := vm.state.(email := email, isEmailFocused := true)), None)
    case UpdatePassword(password) =>
      AuthStep(vm.(state := vm.state.(password := password)), None)
    case ToggleAuthMode =>
      AuthStep(vm.(state := vm.state.(isSignUp := !vm.state.isSignUp)), None)
    case LogIn =>
      StartAuth(vm, LogInCall)
    case SignUp =>
      StartAuth(vm, SignUpCall)
    case EmailLostFocus =>
      var email := vm.state.email;
      AuthStep(vm.(state := vm.state.(
        isEmailFocused := false,
        isEmailError := !isValidEmail(email),
        showEmailError := |email| > 0)), None)
    case NavigateBack =>
      AuthStep(vm.(nav := Navigation.Navigate(vm.nav, Navigation.PostListScreen)), None)
  }

  /** The result of a log-in or a sign-up arriving (both are handled alike). Success
      saves the token, records the response and goes to the post list; failure records
      the error message and leaves the session and destination alone. */
  function CompleteAuth(vm: AuthViewModel, outcome: Outcome<AuthResponse>): (vm': AuthViewModel)
    ensures vm'.state == vm.state.(
      isLoading := false, authResponse := vm'.state.authResponse, error := vm'.state.error)
    ensures outcome.Success? ==>
      && Session.GetAuthToken(vm'.session) == Some(outcome.value.token)
      && vm'.state.authResponse == Some(outcome.value)
      && vm'.state.error == vm.state.error
      && vm'.nav.current == Navigation.PostListScreen
    ensures outcome.Failure? ==>
      && vm'.session == vm.session
      && vm'.nav == vm.nav
      && vm'.state.authResponse == vm.state.authResponse
      && vm'.state.error == outcome.error.message
  {
    match outcome
    case Success(response) =>
      AuthViewModel(
        vm.state.(isLoading := false, authResponse := Some(response)),
        Session.SaveAuthToken(vm.session, response.token),
        Navigation.Navigate(vm.nav, Navigation.PostListScreen))
    case Failure(e) =>
      vm.(state := vm.state.(isLoading := false, error := e.message))
  }

  /** Toggling the mode twice gives back the view model it started from. */
  lemma ToggleTwiceIsIdentity(isValidEmail: string -> bool, vm: AuthViewModel)
    ensures OnEvent(isValidEmail, OnEvent(isValidEmail, vm, ToggleAuthMode).vm, ToggleAuthMode).vm == vm
  {
  }

  /** After typing in the email field, `ShouldShowEmailError` is false. */
  lemma TypingHidesEmailError(isValidEmail: string -> bool, vm: AuthViewModel, email: string)
    ensures !ShouldShowEmailError(OnEvent(isValidEmail, vm, UpdateEmail(email)).vm.state)
  {
  }

  /** After the email field loses focus, `ShouldShowEmailError` holds exactly when the
      address is non-empty and invalid; for an empty field it never holds. */
  lemma LostFocusShowsErrorIff(isValidEmail: string -> bool, vm: AuthViewModel)
    ensures ShouldShowEmailError(OnEvent(isValidEmail, vm, EmailLostFocus).vm.state)
      <==> vm.state.email != "" && !isValidEmail(vm.state.email)
  {
  }

  /** Losing focus twice is losing focus once. */
  lemma LostFocusIdempotent(isValidEmail: string -> bool, vm: AuthViewModel)
    ensures var once := OnEvent(isValidEmail, vm, EmailLostFocus).vm;
      OnEvent(isValidEmail, once, EmailLostFocus).vm == once
  {
  }

  /** A log-in (or sign-up) that succeeds: the request carries the credentials typed
      before the event, and afterwards the session holds the returned token, the
      screen is no longer loading, shows no error, and the app is on the post list. */
  lemma AuthSucceeds(isValidEmail: string -> bool, vm: AuthViewModel, event: AuthEvent, response: AuthResponse)
    requires event.LogIn? || event.SignUp?
    ensures var step := OnEvent(isValidEmail, vm, event);
      var done := CompleteAuth(step.vm, Success(response));
      && step.launched == Some(AuthCall(if event.LogIn? then LogInCall else SignUpCall,
                                        AuthRequest(vm.state.email, vm.state.password)))
      && Session.GetAuthToken(done.session) == Some(response.token)
      && !done.state.isLoading && done.state.error == None
      && done.state.authResponse == Some(response)
      && done.nav.current == Navigation.PostListScreen
  {
  }

  /** A log-in (or sign-up) that fails: the message is shown, loading stops, and the
      session and destination are those from before the event. */
  lemma AuthFails(isValidEmail: string -> bool, vm: AuthViewModel, event: AuthEvent, e: Error)
    requires event.LogIn? || event.SignUp?
    ensures var done := CompleteAuth(OnEvent(isValidEmail, vm, event).vm, Failure(e));
      && done.session == vm.session && done.nav == vm.nav
      && !done.state.isLoading && done.state.error == e.message
  {
  }

  /** The view model never sets `isAuthenticated`: neither events nor results change it. */
  lemma AuthenticatedFlagNeverChanges(isValidEmail: string -> bool, vm: AuthViewModel, event: AuthEvent, outcome: Outcome<AuthResponse>)
    ensures OnEvent(isValidEmail, vm, event).vm.state.isAuthenticated == vm.state.isAuthenticated
    ensures CompleteAuth(vm, outcome).state.isAuthenticated == vm.state.isAuthenticated
  {
  }
}

=== FILE: common.dfy ===
/** Shared vocabulary: nullable values, thrown errors, API call results, and the
    two sequence operations (subsequence, filter) that several screens rely on. */
module Common {

  /** Kotlin's nullable `T?`. */
  datatype Option<T> = None | Some(value: T) {

    /** Kotlin's elvis operator `x ?: default`. */
    function GetOr(default: T): T {
      match this
      case Some(v) => v
      case None => default
    }
  }

  /** A thrown Kotlin `Throwable`, reduced to the one thing the app reads from it:
      its nullable `message`. */
  datatype Error = Error(message: Option<string>)

  /** What a suspending API call does: it returns a response or it throws. */
  datatype ApiCall<T> = Returned(response: T) | Threw(error: Error)

  /** Kotlin's `Result<T>` as the repositories emit it and the view models fold it. */
  datatype Outcome<T> = Success(value: T) | Failure(error: Error)

  // ---------------------------------------------------------------------------
  // Subsequences
  // ---------------------------------------------------------------------------

  /** `a` can be obtained from `b` by deleting elements, so `a` keeps the relative
      order of `b` (matched greedily from the back). */
  predicate IsSubsequence<T(==)>(a: seq<T>, b: seq<T>)
    decreases |b|
  {
    if |a| == 0 then true
    else if |b| == 0 then false
    else if a[|a| - 1] == b[|b| - 1] then IsSubsequence(a[..|a| - 1], b[..|b| - 1])
    else IsSubsequence(a, b[..|b| - 1])
  }

  lemma {:induction false} SubsequenceReflexive<T>(a: seq<T>)
    ensures IsSubsequence(a, a)
    decreases |a|
  {
    if |a| > 0 {
      SubsequenceReflexive(a[..|a| - 1]);
    }
  }

  /** Appending the same element to both sides keeps the relation. */
  lemma SubsequenceAppendBoth<T>(a: seq<T>, b: seq<T>, x: T)
    requires IsSubsequence(a, b)
    ensures IsSubsequence(a + [x], b + [x])
  {
    assert (a + [x])[..|a|] == a;
    assert (b + [x])[..|b|] == b;
  }

  /** Appending an element to the longer side keeps the relation. */
  lemma {:induction false} SubsequenceAppendRight<T>(a: seq<T>, b: seq<T>, x: T)
    requires IsSubsequence(a, b)
    ensures IsSubsequence(a, b + [x])
    decreases |b|, 1
  {
    assert (b + [x])[..|b|] == b;
    if |a| > 0 && a[|a| - 1] == x {
      SubsequenceDropLast(a, b);
    }
  }

  /** Dropping the last element of the shorter side keeps the relation. */
  lemma {:induction false} SubsequenceDropLast<T>(a: seq<T>, b: seq<T>)
    requires |a| > 0 && IsSubsequence(a, b)
    ensures IsSubsequence(a[..|a| - 1], b)
    decreases |b|, 0
  {
    var a', b' := a[..|a| - 1], b[..|b| - 1];
    assert b == b' + [b[|b| - 1]];
    if a[|a| - 1] == b[|b| - 1] {
      SubsequenceAppendRight(a', b', b[|b| - 1]);
    } else {
      SubsequenceDropLast(a, b');
      SubsequenceAppendRight(a', b', b[|b| - 1]);
    }
  }

  /** Every element of a subsequence occurs in the sequence. */
  lemma {:induction false} SubsequenceElements<T>(a: seq<T>, b: seq<T>)
    requires IsSubsequence(a, b)
    ensures forall x :: x in a ==> x in b
    decreases |b|
  {
    if |a| > 0 {
      var a', b' := a[..|a| - 1], b[..|b| - 1];
      assert b == b' + [b[|b| - 1]];
      if a[|a| - 1] == b[|b| - 1] {
        SubsequenceElements(a', b');
        assert a == a' + [a[|a| - 1]];
      } else {
        SubsequenceElements(a, b');
      }
    }
  }

  // ---------------------------------------------------------------------------
  // Kotlin's `filterNot`
  // ---------------------------------------------------------------------------

  /** The elements of `s` for which `drop` is false, in their original order. */
  function FilterNot<T>(s: seq<T>, drop: T -> bool): (r: seq<T>)
    ensures |r| <= |s|
    ensures forall i :: 0 <= i < |r| ==> r[i] in s && !drop(r[i])
    ensures forall i :: 0 <= i < |s| && !drop(s[i]) ==> s[i] in r
    decreases |s|
  {
    if |s| == 0 then []
    else
      var init, last := s[..|s| - 1], s[|s| - 1];
      assert s == init + [last];
      FilterNot(init, drop) + (if drop(last) then [] else [last])
  }

  /** Filtering keeps every survivor as many times as it occurs and drops the rest
      entirely. */
  lemma {:induction false} FilterNotCounts<T>(s: seq<T>, drop: T -> bool)
    ensures forall x :: multiset(FilterNot(s, drop))[x] == if drop(x) then 0 else multiset(s)[x]
    decreases |s|
  {
    if |s| > 0 {
      var init, last := s[..|s| - 1], s[|s| - 1];
      assert s == init + [last];
      FilterNotCounts(init, drop);
      assert multiset(s) == multiset(init) + multiset{last};
    }
  }

  /** Filtering keeps the survivors in their original relative order. */
  lemma {:induction false} FilterNotIsSubsequence<T>(s: seq<T>, drop: T -> bool)
    ensures IsSubsequence(FilterNot(s, drop), s)
    decreases |s|
  {
    if |s| > 0 {
      var init, last := s[..|s| - 1], s[|s| - 1];
      assert s == init + [last];
      FilterNotIsSubsequence(init, drop);
      if drop(last) {
        assert FilterNot(s, drop) == FilterNot(init, drop);
        SubsequenceAppendRight(FilterNot(init, drop), init, last);
      } else {
        SubsequenceAppendBoth(FilterNot(init, drop), init, last);
      }
    }
  }

  /** Filtering a sequence none of whose elements is dropped returns it unchanged. */
  lemma {:induction false} FilterNotKeepsAll<T>(s: seq<T>, drop: T -> bool)
    requires forall i :: 0 <= i < |s| ==> !drop(s[i])
    ensures FilterNot(s, drop) == s
    decreases |s|
  {
    if |s| > 0 {
      var init := s[..|s| - 1];
      FilterNotKeepsAll(init, drop);
      assert s == init + [s[|s| - 1]];
    }
  }

  /** Filtering twice by the same predicate is filtering once. */
  lemma FilterNotIdempotent<T>(s: seq<T>, drop: T -> bool)
    ensures FilterNot(FilterNot(s, drop), drop) == FilterNot(s, drop)
  {
    FilterNotKeepsAll(FilterNot(s, drop), drop);
  }
}

=== FILE: distinct.dfy ===
/** Deduplication of the feed by image URL: the first post carrying an image is
    kept, later posts with the same image are dropped, and order is preserved. */
module Distinct {
  import opened Common
  import opened Models

  /** The image URLs carried by a list of posts. */
  function Images(s: seq<Post>): set<string> {
    set i | 0 <= i < |s| :: s[i].image
  }

  /** No two posts of `s` carry the same image. */
  predicate DistinctImages(s: seq<Post>) {
    forall i, j :: 0 <= i < j < |s| ==> s[i].image != s[j].image
  }

  /** The post at index `i` is the first in `s` to carry its image. */
  predicate FirstOfImage(s: seq<Post>, i: int)
    requires 0 <= i < |s|
  {
    forall j :: 0 <= j < i ==> s[j].image != s[i].image
  }

  /** Reference definition: the posts of `s` that are the first to carry their
      image, in their order in `s`. */
  function FirstOccurrences(s: seq<Post>): (r: seq<Post>)
    ensures |r| <= |s|
    decreases |s|
  {
    if |s| == 0 then []
    else FirstOccurrences(s[..|s| - 1]) + (if FirstOfImage(s, |s| - 1) then [s[|s| - 1]] else [])
  }

  /** A post is the first of its image exactly when its image is not among the
      images before it. */
  lemma FirstOfImageIffUnseen(s: seq<Post>, i: int)
    requires 0 <= i < |s|
    ensures FirstOfImage(s, i) <==> s[i].image !in Images(s[..i])
  {
    if !FirstOfImage(s, i) {
      var j :| 0 <= j < i && s[j].image == s[i].image;
      assert s[..i][j] == s[j];
    }
  }

  lemma ImagesAppend(s: seq<Post>, p: Post)
    ensures Images(s + [p]) == Images(s) + {p.image}
  {
    var t := s + [p];
    assert t[|s|] == p;
    forall k | k in Images(s)
      ensures k in Images(t)
    {
      var i :| 0 <= i < |s| && s[i].image == k;
      assert t[i] == s[i];
    }
  }

  /** Kotlin's `distinctBy { it.image }`: one pass over the list with a set of the
      images already seen. */
  method DistinctByImage(posts: seq<Post>) returns (unique: seq<Post>)
    ensures unique == FirstOccurrences(posts)
  {
    var seen: set<string> := {};
    unique := [];
    var i := 0;
    while i < |posts|
      invariant 0 <= i <= |posts|
      invariant seen == Images(posts[..i])
      invariant unique == FirstOccurrences(posts[..i])
    {
      var p := posts[i];
      var prefix := posts[..i + 1];
      assert prefix[..i] == posts[..i];
      assert prefix == posts[..i] + [p];
      FirstOfImageIffUnseen(prefix, i);
      ImagesAppend(posts[..i], p);
      if p.image !in seen {
        seen := seen + {p.image};
        unique := unique + [p];
      }
      i := i + 1;
    }
    assert posts[..|posts|] == posts;
  }

  /** Every kept post is, at its position in the input, the first to carry its image. */
  lemma {:induction false} KeptPostsAreFirstOccurrences(s: seq<Post>)
    ensures forall k :: 0 <= k < |FirstOccurrences(s)| ==>
      exists i :: 0 <= i < |s| && FirstOfImage(s, i) && s[i] == FirstOccurrences(s)[k]
    decreases |s|
  {
    if |s| > 0 {
      var init := s[..|s| - 1];
      KeptPostsAreFirstOccurrences(init);
      var r, r' := FirstOccurrences(s), FirstOccurrences(init);
      assert r == r' + (if FirstOfImage(s, |s| - 1) then [s[|s| - 1]] else []);
      forall k | 0 <= k < |r|
        ensures exists i :: 0 <= i < |s| && FirstOfImage(s, i) && s[i] == r[k]
      {
        if k < |r'| {
          var i :| 0 <= i < |init| && FirstOfImage(init, i) && init[i] == r'[k];
          assert s[i] == init[i];
          assert FirstOfImage(s, i);
        } else {
          assert FirstOfImage(s, |s| - 1) && r[k] == s[|s| - 1];
        }
      }
    } else {
      assert FirstOccurrences(s) == [];
    }
  }

  /** Every post that is the first to carry its image is kept. */
  lemma {:induction false} FirstOccurrenceIsKept(s: seq<Post>, i: int)
    requires 0 <= i < |s| && FirstOfImage(s, i)
    ensures s[i] in FirstOccurrences(s)
    decreases |s|
  {
    if i < |s| - 1 {
      var init := s[..|s| - 1];
      assert init[i] == s[i];
      assert FirstOfImage(init, i);
      FirstOccurrenceIsKept(init, i);
    }
  }

  /** Deduplication neither adds nor loses an image. */
  lemma {:induction false} FirstOccurrencesKeepImages(s: seq<Post>)
    ensures Images(FirstOccurrences(s)) == Images(s)
    decreases |s|
  {
    if |s| > 0 {
      var init, last := s[..|s| - 1], s[|s| - 1];
      assert s == init + [last];
      FirstOccurrencesKeepImages(init);
      ImagesAppend(init, last);
      FirstOfImageIffUnseen(s, |s| - 1);
      if FirstOfImage(s, |s| - 1) {
        assert FirstOccurrences(s) == FirstOccurrences(init) + [last];
        ImagesAppend(FirstOccurrences(init), last);
      } else {
        assert FirstOccurrences(s) == FirstOccurrences(init);
        assert last.image in Images(init);
      }
    }
  }

  /** The result never holds two posts with the same image. */
  lemma {:induction false} FirstOccurrencesDistinct(s: seq<Post>)
    ensures DistinctImages(FirstOccurrences(s))
    decreases |s|
  {
    if |s| > 0 {
      var init, last := s[..|s| - 1], s[|s| - 1];
      FirstOccurrencesDistinct(init);
      if FirstOfImage(s, |s| - 1) {
        var r' := FirstOccurrences(init);
        FirstOccurrencesKeepImages(init);
        FirstOfImageIffUnseen(s, |s| - 1);
        assert s[..|s| - 1] == init;
        forall k | 0 <= k < |r'|
          ensures r'[k].image != last.image
        {
          assert r'[k].image in Images(r');
        }
      }
    }
  }

  /** The result is a subsequence of the input: relative order is preserved. */
  lemma {:induction false} FirstOccurrencesSubsequence(s: seq<Post>)
    ensures IsSubsequence(FirstOccurrences(s), s)
    decreases |s|
  {
    if |s| > 0 {
      var init, last := s[..|s| - 1], s[|s| - 1];
      assert s == init + [last];
      FirstOccurrencesSubsequence(init);
      if FirstOfImage(s, |s| - 1) {
        SubsequenceAppendBoth(FirstOccurrences(init), init, last);
      } else {
        assert FirstOccurrences(s) == FirstOccurrences(init);
        SubsequenceAppendRight(FirstOccurrences(init), init, last);
      }
    }
  }

  /** A list that already has distinct images is returned unchanged. */
  lemma {:induction false} DistinctIsFixpoint(s: seq<Post>)
    requires DistinctImages(s)
    ensures FirstOccurrences(s) == s
    decreases |s|
  {
    if |s| > 0 {
      var init := s[..|s| - 1];
      DistinctIsFixpoint(init);
      assert FirstOfImage(s, |s| - 1);
      assert s == init + [s[|s| - 1]];
    }
  }

  /** Deduplicating an already deduplicated list changes nothing. */
  lemma FirstOccurrencesIdempotent(s: seq<Post>)
    ensures FirstOccurrences(FirstOccurrences(s)) == FirstOccurrences(s)
  {
    FirstOccurrencesDistinct(s);
    DistinctIsFixpoint(FirstOccurrences(s));
  }

  /** The repository's own example: of two posts with the same image the earlier one
      wins, and a post with a different image in between is kept in place. */
  lemma EarlierPostWins(post1: Post, post2: Post, post3: Post)
    requires post1.image == post3.image && post1.image != post2.image
    ensures FirstOccurrences([post1, post2, post3]) == [post1, post2]
  {
    var s := [post1, post2, post3];
    assert s[0] == post1 && s[2] == post3;
    assert !FirstOfImage(s, 2);
    assert s[..2] == [post1, post2];
    assert s[..2][..1] == [post1];
    assert FirstOfImage(s[..2], 1);
    assert FirstOccurrences([post1]) == [post1];
  }
}

=== FILE: duckit.dfy ===
/** The first-generation view model: one UI state with the feed, the token, a loading
    flag and an error. Logging in falls back to signing up when the server says the
    account does not exist; votes are sent with the token held in the UI state and a
    successful vote reloads the whole feed. */
module Duckit {
  import opened Common
  import opened Models
  import Text
  import Session

  datatype UiState = UiState(
    isLoading: bool,
    posts: Option<PostListResponse>,
    token: Option<string>,
    error: Option<string>)

  /** `UiState()` with every field at its default. */
  function EmptyState(): (s: UiState)
    ensures !s.isLoading && s.posts == None && s.token == None && s.error == None
  {
    UiState(false, None, None, None)
  }

  datatype DuckitViewModel = DuckitViewModel(state: UiState, session: Session.Store)

  /** The request an action launches, if any. */
  datatype DuckitRequest =
    | NoRequest
    | FetchPosts
    | SignIn(signInRequest: AuthRequest)
    | SignUp(signUpRequest: AuthRequest)
    | VoteRequest(postId: string, voteToken: string, isUpvote: bool)

  datatype DuckitStep = DuckitStep(vm: DuckitViewModel, request: DuckitRequest)

  /** The UI state's token and the stored token are the same. */
  predicate TokenInSync(vm: DuckitViewModel) {
    vm.state.token == Session.GetAuthToken(vm.session)
  }

  /** `getTheDucks` up to the request: raise loading (an earlier error stays) and
      fetch the feed. */
  function GetTheDucks(vm: DuckitViewModel): (step: DuckitStep)
    ensures step.vm == vm.(state := vm.state.(isLoading := true))
    ensures step.request == FetchPosts
  {
    DuckitStep(vm.(state := vm.state.(isLoading := true)), FetchPosts)
  }

  /** Construction: `checkUserSession` copies the stored token into the UI state, then
      `getTheDucks` starts the first fetch. */
  function Create(session: Session.Store): (step: DuckitStep)
    ensures step.vm.session == session
    ensures step.vm.state == UiState(true, None, Session.GetAuthToken(session), None)
    ensures step.request == FetchPosts
  {
    var checked := DuckitViewModel(EmptyState().(token := Session.GetAuthToken(session)), session);
    GetTheDucks(checked)
  }

  /** The feed arriving: success stores it as received, failure stores the message. */
  function OnPostsLoaded(vm: DuckitViewModel, outcome: Outcome<PostListResponse>): (vm': DuckitViewModel)
    ensures vm'.session == vm.session && !vm'.state.isLoading && vm'.state.token == vm.state.token
    ensures outcome.Success? ==> vm'.state == vm.state.(isLoading := false, posts := Some(outcome.value))
    ensures outcome.Failure? ==> vm'.state == vm.state.(isLoading := false, error := outcome.error.message)
  {
    match outcome
    case Success(posts) => vm.(state := vm.state.(isLoading := false, posts := Some(posts)))
    case Failure(e) => vm.(state := vm.state.(isLoading := false, error := e.message))
  }

  /** `logIn` up to the request. */
  function LogIn(vm: DuckitViewModel, email: string, password: string): (step: DuckitStep)
    ensures step.vm == vm && step.request == SignIn(AuthRequest(email, password))
  {
    DuckitStep(vm, SignIn(AuthRequest(email, password)))
  }

  /** `signUp` up to the request. */
  function StartSignUp(vm: DuckitViewModel, email: string, password: string): (step: DuckitStep)
    ensures step.vm == vm && step.request == SignUp(AuthRequest(email, password))
  {
    DuckitStep(vm, SignUp(AuthRequest(email, password)))
  }

  /** A failed log-in is taken to mean "no such account" when its message mentions
      "404" or "account not found" (case-sensitive); a missing message never does. */
  predicate AccountMissing(message: Option<string>) {
    message.Some? && (Text.Contains(message.value, "404") || Text.Contains(message.value, "account not found"))
  }

  /** A token arriving from either endpoint: store it and show it. */
  function AcceptToken(vm: DuckitViewModel, response: AuthResponse): (vm': DuckitViewModel)
    ensures Session.GetAuthToken(vm'.session) == Some(response.token)
    ensures vm'.state == vm.state.(token := Some(response.token))
  {
    DuckitViewModel(vm.state.(token := Some(response.token)), Session.SaveAuthToken(vm.session, response.token))
  }

  /** The log-in result arriving. Success stores the token; a failure that looks like
      a missing account signs up with the same credentials and changes nothing yet;
      any other failure shows the message. */
  function OnLogInResult(vm: DuckitViewModel, credentials: AuthRequest, outcome: Outcome<AuthResponse>): (step: DuckitStep)
    ensures outcome.Success? ==>
      && step.request == NoRequest
      && Session.GetAuthToken(step.vm.session) == Some(outcome.value.token)
      && step.vm.state == vm.state.(token := Some(outcome.value.token))
    ensures outcome.Failure? && AccountMissing(outcome.error.message) ==>
      step.vm == vm && step.request == SignUp(credentials)
    ensures outcome.Failure? && !AccountMissing(outcome.error.message) ==>
      && step.request == NoRequest
      && step.vm == vm.(state := vm.state.(error := outcome.error.message))
  {
    match outcome
    case Success(response) => DuckitStep(AcceptToken(vm, response), NoRequest)
    case Failure(e) =>
      if AccountMissing(e.message) then StartSignUp(vm, credentials.email, credentials.password)
      else DuckitStep(vm.(state := vm.state.(error := e.message)), NoRequest)
  }

  /** The sign-up result arriving: success stores the token, failure shows the message. */
  function OnSignUpResult(vm: DuckitViewModel, outcome: Outcome<AuthResponse>): (vm': DuckitViewModel)
    ensures outcome.Success? ==>
      Session.GetAuthToken(vm'.session) == Some(outcome.value.token)
      && vm'.state == vm.state.(token := Some(outcome.value.token))
    ensures outcome.Failure? ==> vm' == vm.(state := vm.state.(error := outcome.error.message))
  {
    match outcome
    case Success(response) => AcceptToken(vm, response)
    case Failure(e) => vm.(state := vm.state.(error := e.message))
  }

  /** `logout`: forget the stored token and reset the whole UI state, feed included. */
  function Logout(vm: DuckitViewModel): (vm': DuckitViewModel)
    ensures Session.GetAuthToken(vm'.session) == None
    ensures vm'.state == EmptyState()
  {
    DuckitViewModel(EmptyState(), Session.ClearAuthToken(vm.session))
  }

  /** `upvote`/`downvote` up to the request: sent with the UI state's token, and
      silently skipped when there is none. */
  function Vote(vm: DuckitViewModel, postId: string, isUpvote: bool): (step: DuckitStep)
    ensures step.vm == vm
    ensures vm.state.token.None? <==> step.request.NoRequest?
    ensures vm.state.token.Some? ==> step.request == VoteRequest(postId, vm.state.token.value, isUpvote)
  {
    match vm.state.token
    case None => DuckitStep(vm, NoRequest)
    case Some(token) => DuckitStep(vm, VoteRequest(postId, token, isUpvote))
  }

  /** The vote result arriving: success reloads the feed, failure shows the message. */
  function OnVoteResult(vm: DuckitViewModel, outcome: Outcome<UpvoteResponse>): (step: DuckitStep)
    ensures outcome.Success? ==> step.request == FetchPosts && step.vm.state.isLoading
    ensures outcome.Success? ==> step.vm == vm.(state := vm.state.(isLoading := true))
    ensures outcome.Failure? ==>
      step.request == NoRequest && step.vm == vm.(state := vm.state.(error := outcome.error.message))
  {
    match outcome
    case Success(_) => GetTheDucks(vm)
    case Failure(e) => DuckitStep(vm.(state := vm.state.(error := e.message)), NoRequest)
  }

  /** The UI state's token mirrors the stored one from construction on, through every
      action and every result. */
  lemma TokenStaysInSync(vm: DuckitViewModel, session: Session.Store, credentials: AuthRequest,
                         email: string, password: string, postId: string, isUpvote: bool,
                         posts: Outcome<PostListResponse>, auth: Outcome<AuthResponse>, vote: Outcome<UpvoteResponse>)
    requires TokenInSync(vm)
    ensures TokenInSync(Create(session).vm)
    ensures TokenInSync(OnPostsLoaded(vm, posts))
    ensures TokenInSync(LogIn(vm, email, password).vm)
    ensures TokenInSync(OnLogInResult(vm, credentials, auth).vm)
    ensures TokenInSync(OnSignUpResult(vm, auth))
    ensures TokenInSync(Logout(vm))
    ensures TokenInSync(Vote(vm, postId, isUpvote).vm)
    ensures TokenInSync(OnVoteResult(vm, vote).vm)
  {
  }

  /** A log-in rejected with a message mentioning "404" is retried as a sign-up with
      the same credentials. */
  lemma NotFoundFallsBackToSignUp(vm: DuckitViewModel, email: string, password: string, before: string, after: string)
    ensures var request := LogIn(vm, email, password).request;
      request.SignIn? &&
      OnLogInResult(vm, request.signInRequest, Failure(Error(Some(before + "404" + after)))).request
        == SignUp(AuthRequest(email, password))
  {
    Text.ContainsMiddle(before, "404", after);
  }

  /** A log-in failure with no message is shown as an absent error, never retried. */
  lemma SilentFailureIsNotRetried(vm: DuckitViewModel, credentials: AuthRequest)
    ensures OnLogInResult(vm, credentials, Failure(Error(None))).request == NoRequest
  {
  }

  /** After logging out no vote is sent, until a new token arrives. */
  lemma LoggedOutCannotVote(vm: DuckitViewModel, postId: string, isUpvote: bool)
    ensures Vote(Logout(vm), postId, isUpvote).request == NoRequest
  {
  }

  /** The whole fallback: a log-in rejected as a missing account, followed by a
      successful sign-up, ends with the sign-up's token stored and shown, and no
      error recorded on the way. */
  lemma FallbackSignUpStoresToken(vm: DuckitViewModel, email: string, password: string,
                                  e: Error, response: AuthResponse)
    requires AccountMissing(e.message)
    ensures var failed := OnLogInResult(vm, AuthRequest(email, password), Failure(e));
      && failed.request == SignUp(AuthRequest(email, password))
      && var done := OnSignUpResult(failed.vm, Success(response));
         && Session.GetAuthToken(done.session) == Some(response.token)
         && done.state == vm.state.(token := Some(response.token))
  {
  }
}

=== FILE: models.dfy ===
/** The payloads exchanged with the Duckit REST API. Vote counts are Kotlin `Int`s;
    the app only stores and compares them, so they are modelled as `int`. */
module Models {

  /** One post of the feed; its identity is `id`. */
  datatype Post = Post(id: string, headline: string, image: string, upvotes: int, author: string)

  /** Body of `GET /posts` (the JSON field is `Posts`). */
  datatype PostListResponse = PostListResponse(posts: seq<Post>)

  /** Body of `POST /posts` (the JSON field is `Posts`). */
  datatype PostResponse = PostResponse(posts: seq<Post>)

  /** Body of the vote endpoints as the repository layer reads it. */
  datatype VoteResponse = VoteResponse(votes: int)

  /** Body of the vote endpoints as the earliest view model's repository reads it. */
  datatype UpvoteResponse = UpvoteResponse(upvotes: int)

  /** Body of `POST /signin` and `POST /signup`. */
  datatype AuthRequest = AuthRequest(email: string, password: string)

  /** Reply of `POST /signin` and `POST /signup`. */
  datatype AuthResponse = AuthResponse(token: string)

  /** Body of `POST /posts`. */
  datatype NewPostRequest = NewPostRequest(headline: string, image: string)
}

=== FILE: motivator.dfy ===
/** The encouragement shown under a post: one of five messages chosen at random
    from the group that matches the post's vote count, with the headline and the
    count filled in; a negative count gets one fixed message. */
module Motivator {
  import Text

  /** The groups of the `when`, tried in this order: zero, one or two, three to five,
      more than five, and anything else (which can only be negative). */
  datatype VoteBucket = NoVotes | LowVotes | MidVotes | HighVotes | Negative

  function BucketOf(votes: int): (b: VoteBucket)
    ensures b == NoVotes <==> votes == 0
    ensures b == LowVotes <==> 1 <= votes <= 2
    ensures b == MidVotes <==> 3 <= votes <= 5
    ensures b == HighVotes <==> votes > 5
    ensures b == Negative <==> votes < 0
  {
    if votes == 0 then NoVotes
    else if 1 <= votes <= 2 then LowVotes
    else if 3 <= votes <= 5 then MidVotes
    else if votes > 5 then HighVotes
    else Negative
  }

  const Fallback: string :=
    "Every upvote makes a difference. Support this post and keep the positivity going."

  /** One piece of a message template: fixed text, or a slot the headline or the
      vote count is written into. */
  datatype Piece = Lit(text: string) | HeadlineSlot | CountSlot

  /** The text a piece contributes once headline `h` and count `n` are known. */
  function Fill(p: Piece, h: string, n: string): string {
    match p
    case Lit(text) => text
    case HeadlineSlot => h
    case CountSlot => n
  }

  /** A message template with headline `h` and the count as text `n` filled in. */
  function Render(t: seq<Piece>, h: string, n: string): (msg: string)
    ensures t == [] ==> msg == []
    ensures |t| == 1 ==> msg == Fill(t[0], h, n)
    decreases |t|
  {
    if t == [] then [] else Fill(t[0], h, n) + Render(t[1..], h, n)
  }

  /** Rendering a template cut in two renders the halves and joins them. */
  lemma {:induction false} RenderAppend(a: seq<Piece>, b: seq<Piece>, h: string, n: string)
    ensures Render(a + b, h, n) == Render(a, h, n) + Render(b, h, n)
    decreases |a|
  {
    if a == [] {
      assert a + b == b;
    } else {
      assert (a + b)[0] == a[0];
      assert (a + b)[1..] == a[1..] + b;
      RenderAppend(a[1..], b, h, n);
      calc {
        Render(a + b, h, n);
        Fill(a[0], h, n) + Render(a[1..] + b, h, n);
        Fill(a[0], h, n) + (Render(a[1..], h, n) + Render(b, h, n));
        (Fill(a[0], h, n) + Render(a[1..], h, n)) + Render(b, h, n);
      }
    }
  }

  /** A template with a headline slot renders to a message containing the headline;
      one with a count slot, to a message containing the count. */
  lemma RenderFillsSlots(t: seq<Piece>, h: string, n: string)
    ensures HeadlineSlot in t ==> Text.Contains(Render(t, h, n), h)
    ensures CountSlot in t ==> Text.Contains(Render(t, h, n), n)
  {
    if HeadlineSlot in t {
      var i :| 0 <= i < |t| && t[i] == HeadlineSlot;
      RenderAroundSlot(t, i, h, n);
      Text.ContainsMiddle(Render(t[..i], h, n), h, Render(t[i + 1..], h, n));
    }
    if CountSlot in t {
      var i :| 0 <= i < |t| && t[i] == CountSlot;
      RenderAroundSlot(t, i, h, n);
      Text.ContainsMiddle(Render(t[..i], h, n), n, Render(t[i + 1..], h, n));
    }
  }

  lemma RenderAroundSlot(t: seq<Piece>, i: int, h: string, n: string)
    requires 0 <= i < |t|
    ensures Render(t, h, n) == Render(t[..i], h, n) + Fill(t[i], h, n) + Render(t[i + 1..], h, n)
  {
    assert t == t[..i] + [t[i]] + t[i + 1..];
    RenderAppend(t[..i] + [t[i]], t[i + 1..], h, n);
    RenderAppend(t[..i], [t[i]], h, n);
  }

  /** The fixed text of the templates, named by group, template index and position
      (`Low3a` is the first fixed text of the fourth low-votes template); the
      " has " that many templates share is named once. The apostrophes written `\U{2019}` are
      typographic ones, as in the app. */
  const No0a: string := " has zero votes. It's waiting for someone to believe in it. Be the first to make a difference."
  const No1a: string := " is fresh and untouched. Your vote could be the spark that sets it on fire."
  const No2a: string := "No votes yet for "
  const No2b: string := ", but I believe in you. One click could be the start of something big."
  const No3a: string := " has zero votes, but you have the power to change that. Lift it up and make an impact."
  const No4a: string := "Every great journey starts with one step. Or in this case, one vote. Be the pioneer who gets "
  const No4b: string := " started."
  const Has: string := " has "
  const Low0b: string := " votes, but it\U{2019}s just getting started. Help it reach new heights."
  const Low1a: string := " votes. A little more support and it could become something great."
  const Low2a: string := "Your vote has more power than you realize. Help "
  const Low2b: string := " grow by giving it the push it needs."
  const Low3a: string := " votes, but it deserves more. Show it some support."
  const Low4a: string := "Think of your upvote as a small act of kindness. Lift "
  const Low4b: string := " up and watch it shine."
  const Mid0a: string := " is gaining momentum with "
  const Mid0b: string := " votes. Keep it going and help it reach the next level."
  const Mid1a: string := " is starting to get noticed with "
  const Mid1b: string := " votes. Your vote could be the one that tips the scale."
  const Mid2a: string := " is picking up steam with "
  const Mid2b: string := " votes. Don\U{2019}t stop now."
  const Mid3a: string := " is gaining recognition with "
  const Mid3b: string := " votes. Be part of something that\U{2019}s growing."
  const Mid4a: string := "Every vote counts. Giving "
  const Mid4b: string := " an upvote makes sure it gets the attention it deserves."
  const High0a: string := " is catching fire with "
  const High0b: string := " votes. But why stop now?"
  const High1a: string := " votes and it\U{2019}s not slowing down. Your vote keeps the momentum going."
  const High2a: string := " votes and it\U{2019}s turning into something big. Keep it going."
  const High3a: string := "With "
  const High3b: string := " votes, "
  const High3c: string := " is already on the rise. Help take it even higher."
  const High4a: string := " votes. Your vote makes it stronger."

  /** The five templates of a group, in the app's order. */
  function Templates(b: VoteBucket): (ts: seq<seq<Piece>>)
    ensures b != Negative ==> |ts| == 5
    ensures b == Negative ==> ts == []
  {
    match b
    case NoVotes => [
      [HeadlineSlot, Lit(No0a)],
      [HeadlineSlot, Lit(No1a)],
      [Lit(No2a), HeadlineSlot, Lit(No2b)],
      [HeadlineSlot, Lit(No3a)],
      [Lit(No4a), HeadlineSlot, Lit(No4b)]]
    case LowVotes => [
      [HeadlineSlot, Lit(Has), CountSlot, Lit(Low0b)],
      [HeadlineSlot, Lit(Has), CountSlot, Lit(Low1a)],
      [Lit(Low2a), HeadlineSlot, Lit(Low2b)],
      [HeadlineSlot, Lit(Has), CountSlot, Lit(Low3a)],
      [Lit(Low4a), HeadlineSlot, Lit(Low4b)]]
    case MidVotes => [
      [HeadlineSlot, Lit(Mid0a), CountSlot, Lit(Mid0b)],
      [HeadlineSlot, Lit(Mid1a), CountSlot, Lit(Mid1b)],
      [HeadlineSlot, Lit(Mid2a), CountSlot, Lit(Mid2b)],
      [HeadlineSlot, Lit(Mid3a), CountSlot, Lit(Mid3b)],
      [Lit(Mid4a), HeadlineSlot, Lit(Mid4b)]]
    case HighVotes => [
      [HeadlineSlot, Lit(High0a), CountSlot, Lit(High0b)],
      [HeadlineSlot, Lit(Has), CountSlot, Lit(High1a)],
      [HeadlineSlot, Lit(Has), CountSlot, Lit(High2a)],
      [Lit(High3a), CountSlot, Lit(High3b), HeadlineSlot, Lit(High3c)],
      [HeadlineSlot, Lit(Has), CountSlot, Lit(High4a)]]
    case Negative => []
  }

  /** Every template of every group has a slot for the headline; every template of
      the top group also has one for the count. */
  lemma TemplateSlots(b: VoteBucket, pick: nat)
    requires pick < |Templates(b)|
    ensures HeadlineSlot in Templates(b)[pick]
    ensures b == HighVotes ==> CountSlot in Templates(b)[pick]
  {
  }

  /** `generateUpVoteMessage`, with the random choice passed in as the index `pick`
      into the group's five messages; the count is written in decimal. */
  function GenerateUpVoteMessage(headline: string, votes: int, pick: nat): (msg: string)
    requires pick < 5
    ensures votes < 0 ==> msg == Fallback
    ensures votes >= 0 ==>
      exists i :: 0 <= i < |Templates(BucketOf(votes))|
        && msg == Render(Templates(BucketOf(votes))[i], headline, Text.IntToDecimal(votes))
  {
    var b := BucketOf(votes);
    if b == Negative then Fallback
    else Render(Templates(b)[pick], headline, Text.IntToDecimal(votes))
  }

  /** Whatever the random choice, a post with a non-negative count is named in its
      message. */
  lemma MessageNamesThePost(headline: string, votes: int, pick: nat)
    requires pick < 5 && votes >= 0
    ensures Text.Contains(GenerateUpVoteMessage(headline, votes, pick), headline)
  {
    TemplateSlots(BucketOf(votes), pick);
    RenderFillsSlots(Templates(BucketOf(votes))[pick], headline, Text.IntToDecimal(votes));
  }

  /** A post with more than five votes always sees its count, in decimal, in the
      message. */
  lemma HighVotesShowTheCount(headline: string, votes: int, pick: nat)
    requires pick < 5 && votes > 5
    ensures Text.Contains(GenerateUpVoteMessage(headline, votes, pick), Text.NatToDecimal(votes))
  {
    TemplateSlots(HighVotes, pick);
    RenderFillsSlots(Templates(HighVotes)[pick], headline, Text.IntToDecimal(votes));
  }
}

=== FILE: navigation.dfy ===
/** The navigation manager: a single "current destination" cell, last write wins. */
module Navigation {
  import opened Common

  /** The destinations the app navigates to. `PostListScreen` is the destination the
      navigation manager starts at and the auth screen returns to; the sealed
      destination class lists only the other three. */
  datatype NavDestination = PostGalleryScreen | AuthScreen | NewPostScreen | PostListScreen

  /** The route string a destination is registered under, where it has one. */
  function Route(d: NavDestination): (r: Option<string>)
    ensures r.None? <==> d == PostListScreen
  {
    match d
    case PostGalleryScreen => Some("postGalleryScreen")
    case AuthScreen => Some("authScreen")
    case NewPostScreen => Some("newPostScreen")
    case PostListScreen => None
  }

  /** Routes tell destinations apart. */
  lemma RoutesDistinct(d: NavDestination, e: NavDestination)
    requires Route(d).Some? && Route(d) == Route(e)
    ensures d == e
  {
  }

  /** The current destination is the only state: no back stack is kept. */
  datatype Navigator = Navigator(current: NavDestination)

  function Initial(): (n: Navigator)
    ensures n.current == PostListScreen
  {
    Navigator(PostListScreen)
  }

  function Navigate(n: Navigator, destination: NavDestination): (n': Navigator)
    ensures n'.current == destination
  {
    Navigator(destination)
  }

  /** The last navigation wins, whatever came before it. */
  lemma LastNavigateWins(n: Navigator, first: NavDestination, second: NavDestination)
    ensures Navigate(Navigate(n, first), second) == Navigate(n, second)
  {
  }

  /** Navigating to the same destination twice is navigating once. */
  lemma NavigateIdempotent(n: Navigator, d: NavDestination)
    ensures Navigate(Navigate(n, d), d) == Navigate(n, d)
  {
  }

  /** No history: the result of a navigation does not depend on where the user was. */
  lemma NavigateForgetsHistory(n: Navigator, m: Navigator, d: NavDestination)
    ensures Navigate(n, d) == Navigate(m, d)
  {
  }
}

=== FILE: new_post.dfy ===
/** The new-post screen: form state, its events, the image URL validation, and the
    submission guard and outcomes. */
module NewPost {
  import opened Common
  import opened Models
  import opened Text

  datatype NewPostEvent =
    | UpdateHeadline(headline: string)
    | UpdateImageUrl(imageUrl: string)
    | ImageUrlFocusChanged(isFocused: bool)
    | UpdateImageLoadState(isValid: bool)
    | SubmitPost
    | ResetForm
    | NavigateBack

  /** The string resources the screen can show. */
  datatype Message =
    | ImageUrlCannotBeEmpty
    | InvalidUrlFormat
    | UnsupportedImageFormat
    | FillHeadlineAndLoadImage
    | AuthenticationRequired
    | FailedToPost

  datatype NewPostViewState = NewPostViewState(
    headline: string,
    imageUrl: string,
    isSubmitting: bool,
    isImageValid: bool,
    imageUrlError: Option<Message>,
    showImageUrlError: bool,
    errorMessage: Option<Message>,
    postSuccess: bool,
    postedPost: Option<NewPostRequest>)

  /** The empty form. */
  function DefaultState(): (s: NewPostViewState)
    ensures s.headline == "" && s.imageUrl == ""
    ensures !s.isSubmitting && !s.isImageValid && !s.showImageUrlError && !s.postSuccess
    ensures s.imageUrlError == None && s.errorMessage == None && s.postedPost == None
  {
    NewPostViewState("", "", false, false, None, false, None, false, None)
  }

  // ---------------------------------------------------------------------------
  // Image URL validation
  // ---------------------------------------------------------------------------

  const SupportedImageExtensions: seq<string> := ["jpg", "jpeg", "png", "webp", "gif"]

  /** The URL ends, ignoring case, with a dot and one of the supported extensions. */
  predicate HasSupportedExtension(url: string) {
    exists k :: 0 <= k < |SupportedImageExtensions| && EndsWithIgnoreCase(url, "." + SupportedImageExtensions[k])
  }

  /** `validateImageUrl`, with the platform's web-URL pattern passed in: blank first,
      then the web-URL pattern, then the extension list. */
  function ValidateImageUrl(isWebUrl: string -> bool, url: string): (err: Option<Message>)
    ensures IsBlank(url) ==> err == Some(ImageUrlCannotBeEmpty)
    ensures !IsBlank(url) && !isWebUrl(url) ==> err == Some(InvalidUrlFormat)
    ensures !IsBlank(url) && isWebUrl(url) ==>
      (err == None <==> HasSupportedExtension(url))
      && (err != None ==> err == Some(UnsupportedImageFormat))
  {
    if IsBlank(url) then Some(ImageUrlCannotBeEmpty)
    else if !isWebUrl(url) then Some(InvalidUrlFormat)
    else if !HasSupportedExtension(url) then Some(UnsupportedImageFormat)
    else None
  }

  lemma EndsWithCharAt(url: string, suffix: string, i: int)
    requires EndsWithIgnoreCase(url, suffix) && 0 <= i < |suffix|
    ensures CharEqualsIgnoreCase(url[|url| - |suffix| + i], suffix[i])
  {
  }

  /** What every accepted URL looks like, whatever the web-URL pattern: a dot four or
      five characters from the end, and a last character that is g, f or p in either
      case (every supported extension ends in one of those letters). */
  lemma AcceptedUrlShape(isWebUrl: string -> bool, url: string)
    requires ValidateImageUrl(isWebUrl, url) == None
    ensures isWebUrl(url) && !IsBlank(url) && |url| >= 4
    ensures url[|url| - 4] == '.' || (|url| >= 5 && url[|url| - 5] == '.')
    ensures url[|url| - 1] in "gGfFpP"
  {
    var k :| 0 <= k < |SupportedImageExtensions| && EndsWithIgnoreCase(url, "." + SupportedImageExtensions[k]);
    var suffix := "." + SupportedImageExtensions[k];
    EndsWithCharAt(url, suffix, 0);
    EndsWithCharAt(url, suffix, |suffix| - 1);
    assert url[|url| - 1] == url[|url| - |suffix| + (|suffix| - 1)];
  }

  /** Upper-cases the ASCII letters of a string. */
  function UppercaseAscii(s: string): (r: string)
    ensures |r| == |s|
    ensures forall i :: 0 <= i < |s| ==> r[i] == UppercaseChar(s[i])
  {
    if |s| == 0 then [] else [UppercaseChar(s[0])] + UppercaseAscii(s[1..])
  }

  /** Case does not matter: a web URL ending in a supported extension written in
      capitals (".JPG", ".WEBP", ...) is accepted. */
  lemma UppercaseExtensionAccepted(isWebUrl: string -> bool, base: string, k: int)
    requires 0 <= k < |SupportedImageExtensions|
    requires isWebUrl(base + "." + UppercaseAscii(SupportedImageExtensions[k]))
    ensures ValidateImageUrl(isWebUrl, base + "." + UppercaseAscii(SupportedImageExtensions[k])) == None
  {
    var ext := SupportedImageExtensions[k];
    var url := base + "." + UppercaseAscii(ext);
    var suffix := "." + ext;
    assert url[|url| - 1] == UppercaseChar(ext[|ext| - 1]);
    assert !IsWhitespace(url[|url| - 1]);
    forall i | 0 <= i < |suffix|
      ensures CharEqualsIgnoreCase(url[|url| - |suffix| + i], suffix[i])
    {
      if i > 0 {
        assert url[|url| - |suffix| + i] == UppercaseChar(ext[i - 1]);
      }
    }
    assert EndsWithIgnoreCase(url, suffix);
  }

  /** Kotlin compares characters through upper case, so a dotless i matches the i of
      ".gif": the URL "x.gıf" passes the extension check. */
  lemma DotlessIMatchesGif(isWebUrl: string -> bool, base: string)
    requires isWebUrl(base + ".g\U{131}f")
    ensures ValidateImageUrl(isWebUrl, base + ".g\U{131}f") == None
  {
    var url := base + ".g\U{131}f";
    assert !IsWhitespace(url[|url| - 1]);
    assert url[|url| - 4..] == ".g\U{131}f";
    assert EndsWithIgnoreCase(url, "." + SupportedImageExtensions[4]);
  }

  // ---------------------------------------------------------------------------
  // Events
  // ---------------------------------------------------------------------------

  /** What an event asks of the world besides the new state. */
  datatype NewPostEffect =
    | NoEffect
    | LaunchSubmit(request: NewPostRequest)
    | NavigateBackRequested

  datatype NewPostStep = NewPostStep(state: NewPostViewState, effect: NewPostEffect)

  /** The submission guard: a headline, an image URL, and an image that loaded. */
  predicate ReadyToSubmit(s: NewPostViewState) {
    !IsBlank(s.headline) && !IsBlank(s.imageUrl) && s.isImageValid
  }

  /** `onEvent`, with the platform's web-URL pattern passed in. */
  function OnEvent(isWebUrl: string -> bool, s: NewPostViewState, event: NewPostEvent): (step: NewPostStep)
    ensures event.UpdateHeadline? ==> step.state == s.(headline := event.headline) && step.effect == NoEffect
    ensures event.UpdateImageUrl? ==>
      && step.effect == NoEffect
      && step.state == s.(
        imageUrl := event.imageUrl,
        isImageValid := false,
        showImageUrlError := false,
        imageUrlError := ValidateImageUrl(isWebUrl, event.imageUrl))
    ensures event.ImageUrlFocusChanged? ==>
      step.state == s.(showImageUrlError := !event.isFocused) && step.effect == NoEffect
    ensures event.UpdateImageLoadState? ==> step.state == s.(isImageValid := event.isValid) && step.effect == NoEffect
    ensures event.SubmitPost? && !ReadyToSubmit(s) ==>
      step.state == s.(errorMessage := Some(FillHeadlineAndLoadImage)) && step.effect == NoEffect
    ensures event.SubmitPost? && ReadyToSubmit(s) ==>
      && step.state == s.(isSubmitting := true, errorMessage := None)
      && step.effect == LaunchSubmit(NewPostRequest(s.headline, s.imageUrl))
    ensures event.ResetForm? ==> step.state == DefaultState() && step.effect == NoEffect
    ensures event.NavigateBack? ==> step.state == s && step.effect == NavigateBackRequested
    ensures step.effect.LaunchSubmit? ==> event.SubmitPost?
  {
    match event
    case UpdateHeadline(headline) =>
      NewPostStep(s.(headline := headline), NoEffect)
    case UpdateImageUrl(url) =>
      var cleared := s.(imageUrl := url, isImageValid := false, showImageUrlError := false);
      NewPostStep(cleared.(imageUrlError := ValidateImageUrl(isWebUrl, url)), NoEffect)
    case ImageUrlFocusChanged(isFocused) =>
      NewPostStep(s.(showImageUrlError := !isFocused), NoEffect)
    case UpdateImageLoadState(isValid) =>
      NewPostStep(s.(isImageValid := isValid), NoEffect)
    case SubmitPost =>
      if IsBlank(s.headline) || IsBlank(s.imageUrl) || !s.isImageValid then
        NewPostStep(s.(errorMessage := Some(FillHeadlineAndLoadImage)), NoEffect)
      else
        NewPostStep(
          s.(isSubmitting := true, errorMessage := None),
          LaunchSubmit(NewPostRequest(s.headline, s.imageUrl)))
    case ResetForm =>
      NewPostStep(DefaultState(), NoEffect)
    case NavigateBack =>
      NewPostStep(s, NavigateBackRequested)
  }

  // ---------------------------------------------------------------------------
  // Submission
  // ---------------------------------------------------------------------------

  /** How the launched submission ends: the stored token was read (present or not),
      or an exception escaped reading it or invoking the use case. */
  datatype SubmitRun = Finished(storedToken: Option<string>) | Raised

  /** The token the screen hands to the use case: a fixed literal, not the stored one. */
  const SentToken: string := "user_token"

  /** The arguments handed to the new-post use case. The flow it returns is never
      collected, so no server answer ever reaches the screen. */
  datatype NewPostCall = NewPostCall(token: string, request: NewPostRequest)

  datatype SubmitResult = SubmitResult(state: NewPostViewState, invoked: Option<NewPostCall>)

  /** The end of a launched submission, applied to the state current at that time.
      `request` was built from the state at the moment of submitting. */
  function CompleteSubmit(s: NewPostViewState, request: NewPostRequest, run: SubmitRun): (r: SubmitResult)
    ensures !r.state.isSubmitting
    ensures r.state == s.(
      isSubmitting := false,
      errorMessage := r.state.errorMessage,
      postSuccess := r.state.postSuccess,
      postedPost := r.state.postedPost)
    ensures run == Raised ==>
      r.state.errorMessage == Some(FailedToPost) && r.state.postSuccess == s.postSuccess && r.invoked == None
    ensures run == Finished(None) ==>
      r.state.errorMessage == Some(AuthenticationRequired) && r.state.postSuccess == s.postSuccess && r.invoked == None
    ensures run.Finished? && run.storedToken.Some? ==>
      && r.state.postSuccess
      && r.state.postedPost == Some(request)
      && r.state.errorMessage == s.errorMessage
      && r.invoked == Some(NewPostCall(SentToken, request))
  {
    match run
    case Raised =>
      SubmitResult(s.(isSubmitting := false, errorMessage := Some(FailedToPost)), None)
    case Finished(None) =>
      SubmitResult(s.(isSubmitting := false, errorMessage := Some(AuthenticationRequired)), None)
    case Finished(Some(_)) =>
      SubmitResult(
        s.(isSubmitting := false, postSuccess := true, postedPost := Some(request)),
        Some(NewPostCall(SentToken, request)))
  }

  /** Resetting returns the empty form from any state. */
  lemma ResetFormForgetsEverything(isWebUrl: string -> bool, s: NewPostViewState, t: NewPostViewState)
    ensures OnEvent(isWebUrl, s, ResetForm).state == OnEvent(isWebUrl, t, ResetForm).state
    ensures OnEvent(isWebUrl, s, ResetForm).state == DefaultState()
  {
  }

  /** A submission that gets past the guard while a token is stored ends as a success
      with the form's headline and URL as the posted post, whatever the server would
      have said, and the token handed on is the literal "user_token", not the stored one. */
  lemma SubmitWithTokenSucceeds(isWebUrl: string -> bool, s: NewPostViewState, token: string)
    requires ReadyToSubmit(s)
    ensures var step := OnEvent(isWebUrl, s, SubmitPost);
      var done := CompleteSubmit(step.state, step.effect.request, Finished(Some(token)));
      && done.state.postSuccess && !done.state.isSubmitting && done.state.errorMessage == None
      && done.state.postedPost == Some(NewPostRequest(s.headline, s.imageUrl))
      && done.invoked.value.token == "user_token"
  {
  }

  /** The guard looks at neither `isSubmitting` nor `postSuccess`: once a post has
      gone through, submitting the unchanged form again posts it again. */
  lemma ResubmitAfterSuccessPostsAgain(isWebUrl: string -> bool, s: NewPostViewState, token: string)
    requires ReadyToSubmit(s)
    ensures var first := OnEvent(isWebUrl, s, SubmitPost);
      var done := CompleteSubmit(first.state, first.effect.request, Finished(Some(token)));
      && done.state.postSuccess
      && done.state.postedPost == Some(NewPostRequest(s.headline, s.imageUrl))
      && OnEvent(isWebUrl, done.state, SubmitPost).effect == first.effect
      && first.effect == LaunchSubmit(NewPostRequest(s.headline, s.imageUrl))
  {
  }

  /** A submission stopped by the guard launches nothing and leaves `isSubmitting` alone. */
  lemma GuardLaunchesNothing(isWebUrl: string -> bool, s: NewPostViewState)
    requires IsBlank(s.headline) || IsBlank(s.imageUrl) || !s.isImageValid
    ensures var step := OnEvent(isWebUrl, s, SubmitPost);
      step.effect == NoEffect && step.state.isSubmitting == s.isSubmitting
      && step.state.errorMessage == Some(FillHeadlineAndLoadImage)
  {
  }
}

=== FILE: post_gallery.dfy ===
/** The post gallery screen (the current generation): the list of per-post view
    states, loading and error flags, the login prompt, the post dialog, and the
    voting, removal, floating-button and log-out actions. */
module PostGallery {
  import opened Common
  import opened Models
  import Session
  import Navigation

  /** One card of the gallery. */
  datatype PostViewState = PostViewState(
    id: string,
    headline: string,
    image: string,
    author: string,
    votes: int,
    isLoading: bool,
    error: Option<string>)

  /** `Post.toViewState()`: the vote count is the post's upvotes; the card is idle. */
  function ToViewState(p: Post): (v: PostViewState)
    ensures v.id == p.id && v.headline == p.headline && v.image == p.image && v.author == p.author
    ensures v.votes == p.upvotes && !v.isLoading && v.error == None
  {
    PostViewState(p.id, p.headline, p.image, p.author, p.upvotes, false, None)
  }

  /** Why the login prompt is up. */
  datatype LoginReason = LogInToPost | LogInToVote

  /** The view model's observable cells together with the services it drives. The
      first three fields are the screen state; the rest are the separate flows the
      view model keeps beside it. */
  datatype GalleryViewModel = GalleryViewModel(
    posts: seq<PostViewState>,
    isLoading: bool,
    error: Option<string>,
    showLoginPrompt: bool,
    loginReason: LoginReason,
    isLoggedIn: bool,
    showPostDialog: bool,
    selectedPost: Option<PostViewState>,
    session: Session.Store,
    nav: Navigation.Navigator)

  /** The request an action launches, if any. */
  datatype GalleryRequest =
    | NoRequest
    | FetchPosts(fetchToken: Option<string>)
    | Vote(postId: string, voteToken: string, isUpvote: bool)

  datatype GalleryStep = GalleryStep(vm: GalleryViewModel, request: GalleryRequest)

  /** Construction: empty screen state, logged-in flag from the stored token, no
      prompt, no dialog; then the initial post fetch. */
  function Create(session: Session.Store, nav: Navigation.Navigator): (step: GalleryStep)
    ensures step.vm.posts == [] && step.vm.isLoading && step.vm.error == None
    ensures !step.vm.showLoginPrompt && step.vm.loginReason == LogInToPost
    ensures !step.vm.showPostDialog && step.vm.selectedPost == None
    ensures step.vm.isLoggedIn <==> Session.GetAuthToken(session).Some?
    ensures step.request == FetchPosts(Session.GetAuthToken(session))
    ensures step.vm.session == session && step.vm.nav == nav
  {
    var vm := GalleryViewModel([], false, None, false, LogInToPost,
                               Session.GetAuthToken(session).Some?, false, None, session, nav);
    GetPostList(vm)
  }

  /** `getPostList` up to the request: read the token, refresh the logged-in flag,
      raise loading and clear the screen error. */
  function GetPostList(vm: GalleryViewModel): (step: GalleryStep)
    ensures step.vm == vm.(
      isLoggedIn := Session.GetAuthToken(vm.session).Some?, isLoading := true, error := None)
    ensures step.request == FetchPosts(Session.GetAuthToken(vm.session))
  {
    var token := Session.GetAuthToken(vm.session);
    GalleryStep(vm.(isLoggedIn := token.Some?, isLoading := true, error := None), FetchPosts(token))
  }

  const LoadPostsFailed: string := "Failed to load posts"

  /** The post list arriving: success replaces the cards, one per post in order;
      failure shows the error message or a fixed fallback. */
  function OnPostsLoaded(vm: GalleryViewModel, outcome: Outcome<PostListResponse>): (vm': GalleryViewModel)
    ensures !vm'.isLoading
    ensures vm' == vm.(isLoading := false, posts := vm'.posts, error := vm'.error)
    ensures outcome.Success? ==>
      && |vm'.posts| == |outcome.value.posts|
      && (forall i :: 0 <= i < |vm'.posts| ==>
            vm'.posts[i].id == outcome.value.posts[i].id
            && vm'.posts[i].headline == outcome.value.posts[i].headline
            && vm'.posts[i].image == outcome.value.posts[i].image
            && vm'.posts[i].author == outcome.value.posts[i].author
            && vm'.posts[i].votes == outcome.value.posts[i].upvotes
            && !vm'.posts[i].isLoading && vm'.posts[i].error == None)
      && vm'.error == vm.error
    ensures outcome.Failure? ==>
      vm'.posts == vm.posts && vm'.error == Some(outcome.error.message.GetOr(LoadPostsFailed))
  {
    match outcome
    case Success(response) =>
      vm.(isLoading := false, posts := seq(|response.posts|, i requires 0 <= i < |response.posts| => ToViewState(response.posts[i])))
    case Failure(e) =>
      vm.(isLoading := false, error := Some(e.message.GetOr(LoadPostsFailed)))
  }

  function ShowPostDialog(vm: GalleryViewModel, post: PostViewState): (vm': GalleryViewModel)
    ensures vm' == vm.(selectedPost := Some(post), showPostDialog := true)
  {
    vm.(selectedPost := Some(post), showPostDialog := true)
  }

  function DismissPostDialog(vm: GalleryViewModel): (vm': GalleryViewModel)
    ensures vm' == vm.(showPostDialog := false, selectedPost := None)
  {
    vm.(showPostDialog := false, selectedPost := None)
  }

  /** Showing a post and dismissing the dialog leaves no trace of the post. */
  lemma DismissUndoesShow(vm: GalleryViewModel, post: PostViewState)
    ensures DismissPostDialog(ShowPostDialog(vm, post)) == DismissPostDialog(vm)
  {
  }

  // ---------------------------------------------------------------------------
  // Per-post updates
  // ---------------------------------------------------------------------------

  /** `updatePostState` on a list: every card with the id gets the given votes and
      loading flag when those are present (keeping its own otherwise) and the given
      error, which clears it when absent; all other cards are untouched. */
  function UpdatePostState(posts: seq<PostViewState>, postId: string,
                           votes: Option<int>, isLoading: Option<bool>, error: Option<string>): (r: seq<PostViewState>)
    ensures |r| == |posts|
    ensures forall i :: 0 <= i < |posts| && posts[i].id != postId ==> r[i] == posts[i]
    ensures forall i :: 0 <= i < |posts| && posts[i].id == postId ==>
      && r[i].votes == (if votes.Some? then votes.value else posts[i].votes)
      && r[i].isLoading == (if isLoading.Some? then isLoading.value else posts[i].isLoading)
      && r[i].error == error
      && r[i] == posts[i].(votes := r[i].votes, isLoading := r[i].isLoading, error := error)
  {
    seq(|posts|, i requires 0 <= i < |posts| =>
      if posts[i].id == postId then
        posts[i].(votes := votes.GetOr(posts[i].votes), isLoading := isLoading.GetOr(posts[i].isLoading), error := error)
      else posts[i])
  }

  function PostIds(posts: seq<PostViewState>): (ids: seq<string>)
    ensures |ids| == |posts|
    ensures forall i :: 0 <= i < |posts| ==> ids[i] == posts[i].id
  {
    seq(|posts|, i requires 0 <= i < |posts| => posts[i].id)
  }

  /** Updating a card never changes which cards there are, nor their order. */
  lemma UpdateKeepsIds(posts: seq<PostViewState>, postId: string, votes: Option<int>, isLoading: Option<bool>, error: Option<string>)
    ensures PostIds(UpdatePostState(posts, postId, votes, isLoading, error)) == PostIds(posts)
  {
  }

  /** `removePost` on a list: the cards with another id, in their original order. */
  function RemoveFrom(posts: seq<PostViewState>, postId: string): (r: seq<PostViewState>)
    ensures forall i :: 0 <= i < |r| ==> r[i].id != postId && r[i] in posts
    ensures forall i :: 0 <= i < |posts| && posts[i].id != postId ==> posts[i] in r
    ensures IsSubsequence(r, posts)
    ensures forall p :: multiset(r)[p] == if p.id == postId then 0 else multiset(posts)[p]
  {
    FilterNotIsSubsequence(posts, (p: PostViewState) => p.id == postId);
    FilterNotCounts(posts, (p: PostViewState) => p.id == postId);
    FilterNot(posts, (p: PostViewState) => p.id == postId)
  }

  function RemovePost(vm: GalleryViewModel, postId: string): (vm': GalleryViewModel)
    ensures vm' == vm.(posts := RemoveFrom(vm.posts, postId))
  {
    vm.(posts := RemoveFrom(vm.posts, postId))
  }

  /** Removing a card after updating it is removing it: an update only touches the
      cards a removal of the same id deletes. */
  lemma {:induction false} RemoveAfterUpdate(posts: seq<PostViewState>, postId: string,
                                             votes: Option<int>, isLoading: Option<bool>, error: Option<string>)
    ensures RemoveFrom(UpdatePostState(posts, postId, votes, isLoading, error), postId) == RemoveFrom(posts, postId)
    decreases |posts|
  {
    if |posts| > 0 {
      var drop := (p: PostViewState) => p.id == postId;
      var init, last := posts[..|posts| - 1], posts[|posts| - 1];
      var updated := UpdatePostState(posts, postId, votes, isLoading, error);
      var updatedInit := UpdatePostState(init, postId, votes, isLoading, error);
      assert posts == init + [last];
      assert updated == updatedInit + [updated[|posts| - 1]];
      RemoveAfterUpdate(init, postId, votes, isLoading, error);
      assert FilterNot(updated, drop) == FilterNot(updatedInit, drop) + (if drop(updated[|posts| - 1]) then [] else [updated[|posts| - 1]]);
      assert FilterNot(posts, drop) == FilterNot(init, drop) + (if drop(last) then [] else [last]);
    }
  }

  /** Removing an id that no card has changes nothing. */
  lemma RemoveAbsentIsNoop(posts: seq<PostViewState>, postId: string)
    requires forall i :: 0 <= i < |posts| ==> posts[i].id != postId
    ensures RemoveFrom(posts, postId) == posts
  {
    FilterNotKeepsAll(posts, (p: PostViewState) => p.id == postId);
  }

  // ---------------------------------------------------------------------------
  // Voting
  // ---------------------------------------------------------------------------

  /** The private `upvote`/`downvote` up to the request: mark the card loading. */
  function StartVote(vm: GalleryViewModel, postId: string, token: string, isUpvote: bool): (step: GalleryStep)
    ensures step.vm == vm.(posts := UpdatePostState(vm.posts, postId, None, Some(true), None))
    ensures step.request == Vote(postId, token, isUpvote)
  {
    GalleryStep(vm.(posts := UpdatePostState(vm.posts, postId, None, Some(true), None)), Vote(postId, token, isUpvote))
  }

  function VoteFailed(isUpvote: bool): string {
    if isUpvote then "Failed to upvote" else "Failed to downvote"
  }

  /** The vote result arriving: success stores the new count, failure stores the
      message (or a fixed fallback) and keeps the count; the card stops loading. */
  function OnVoteResult(vm: GalleryViewModel, postId: string, isUpvote: bool, outcome: Outcome<VoteResponse>): (vm': GalleryViewModel)
    ensures vm' == vm.(posts := vm'.posts)
    ensures outcome.Success? ==>
      vm'.posts == UpdatePostState(vm.posts, postId, Some(outcome.value.votes), Some(false), None)
    ensures outcome.Failure? ==>
      vm'.posts == UpdatePostState(vm.posts, postId, None, Some(false),
                                   Some(outcome.error.message.GetOr(VoteFailed(isUpvote))))
  {
    match outcome
    case Success(response) =>
      vm.(posts := UpdatePostState(vm.posts, postId, Some(response.votes), Some(false), None))
    case Failure(e) =>
      vm.(posts := UpdatePostState(vm.posts, postId, None, Some(false), Some(e.message.GetOr(VoteFailed(isUpvote)))))
  }

  /** A failed vote leaves every card's count as it was before the vote, and the
      voted cards idle with an error; a successful one gives them the server's count. */
  lemma VoteRoundTrip(vm: GalleryViewModel, postId: string, token: string, isUpvote: bool, outcome: Outcome<VoteResponse>)
    ensures var started := StartVote(vm, postId, token, isUpvote).vm;
      var done := OnVoteResult(started, postId, isUpvote, outcome);
      && |done.posts| == |vm.posts|
      && forall i :: 0 <= i < |vm.posts| ==>
           if vm.posts[i].id != postId then done.posts[i] == vm.posts[i]
           else
             && !done.posts[i].isLoading
             && (outcome.Failure? ==> done.posts[i].votes == vm.posts[i].votes && done.posts[i].error.Some?)
             && (outcome.Success? ==> done.posts[i].votes == outcome.value.votes && done.posts[i].error == None)
  {
  }

  /** `onVoteClicked`: always dismisses the dialog and refreshes the logged-in flag;
      without a non-empty token it raises the vote login prompt and sends nothing. */
  function OnVoteClicked(vm: GalleryViewModel, postId: string, isUpvote: bool): (step: GalleryStep)
    ensures !step.vm.showPostDialog && step.vm.selectedPost == None
    ensures step.vm.isLoggedIn <==> Session.GetAuthToken(vm.session).Some?
    ensures step.vm == vm.(
      showPostDialog := false, selectedPost := None, isLoggedIn := step.vm.isLoggedIn,
      showLoginPrompt := step.vm.showLoginPrompt, loginReason := step.vm.loginReason, posts := step.vm.posts)
    ensures var token := Session.GetAuthToken(vm.session);
      if token.None? || token.value == "" then
        && step.request == NoRequest
        && step.vm.showLoginPrompt && step.vm.loginReason == LogInToVote
        && step.vm.posts == vm.posts
      else
        && step.request == Vote(postId, token.value, isUpvote)
        && step.vm.showLoginPrompt == vm.showLoginPrompt && step.vm.loginReason == vm.loginReason
        && step.vm.posts == UpdatePostState(vm.posts, postId, None, Some(true), None)
  {
    var dismissed := DismissPostDialog(vm);
    var token := Session.GetAuthToken(vm.session);
    var checked := dismissed.(isLoggedIn := token.Some?);
    if token.None? || |token.value| == 0 then
      GalleryStep(checked.(loginReason := LogInToVote, showLoginPrompt := true), NoRequest)
    else
      StartVote(checked, postId, token.value, isUpvote)
  }

  /** An empty stored token counts as logged in for the flag, yet voting still asks the
      user to log in. */
  lemma EmptyTokenLoggedInButPrompted(vm: GalleryViewModel, postId: string, isUpvote: bool)
    requires Session.GetAuthToken(vm.session) == Some("")
    ensures var step := OnVoteClicked(vm, postId, isUpvote);
      step.vm.isLoggedIn && step.vm.showLoginPrompt && step.request == NoRequest
  {
  }

  /** `onFabClicked`: dismisses the dialog, then opens the new-post screen when logged
      in, or raises the post login prompt otherwise. */
  function OnFabClicked(vm: GalleryViewModel): (vm': GalleryViewModel)
    ensures !vm'.showPostDialog && vm'.selectedPost == None
    ensures vm' == vm.(
      showPostDialog := false, selectedPost := None,
      nav := vm'.nav, showLoginPrompt := vm'.showLoginPrompt, loginReason := vm'.loginReason)
    ensures vm.isLoggedIn ==>
      vm'.nav.current == Navigation.NewPostScreen
      && vm'.showLoginPrompt == vm.showLoginPrompt && vm'.loginReason == vm.loginReason
    ensures !vm.isLoggedIn ==>
      vm'.nav == vm.nav && vm'.showLoginPrompt && vm'.loginReason == LogInToPost
  {
    var dismissed := DismissPostDialog(vm);
    if vm.isLoggedIn then dismissed.(nav := Navigation.Navigate(vm.nav, Navigation.NewPostScreen))
    else dismissed.(loginReason := LogInToPost, showLoginPrompt := true)
  }

  function DismissLoginPrompt(vm: GalleryViewModel): (vm': GalleryViewModel)
    ensures vm' == vm.(showLoginPrompt := false)
  {
    vm.(showLoginPrompt := false)
  }

  /** `navigateToSignIn`: drop the prompt and open the auth screen. */
  function NavigateToSignIn(vm: GalleryViewModel): (vm': GalleryViewModel)
    ensures !vm'.showLoginPrompt && vm'.nav.current == Navigation.AuthScreen
    ensures vm' == vm.(showLoginPrompt := false, nav := vm'.nav)
  {
    DismissLoginPrompt(vm).(nav := Navigation.Navigate(vm.nav, Navigation.AuthScreen))
  }

  /** The login prompt the floating button raises for a logged-out user: dismissing it
      leaves only the closed dialog and the post reason behind; following it opens the
      auth screen instead. Either way the cards, the session and the loading state are
      those from before the click. */
  lemma FabPromptRoundTrip(vm: GalleryViewModel)
    requires !vm.isLoggedIn
    ensures var prompted := OnFabClicked(vm);
      var closed := vm.(showPostDialog := false, selectedPost := None, showLoginPrompt := false, loginReason := LogInToPost);
      && prompted.showLoginPrompt && prompted.loginReason == LogInToPost
      && DismissLoginPrompt(prompted) == closed
      && NavigateToSignIn(prompted) == closed.(nav := Navigation.Navigate(vm.nav, Navigation.AuthScreen))
  {
  }

  /** `logOut`: forget the token, drop the logged-in flag and fetch the posts again,
      now without a token. */
  function LogOut(vm: GalleryViewModel): (step: GalleryStep)
    ensures Session.GetAuthToken(step.vm.session) == None
    ensures !step.vm.isLoggedIn && step.vm.isLoading && step.vm.error == None
    ensures step.request == FetchPosts(None)
    ensures step.vm == vm.(session := step.vm.session, isLoggedIn := false, isLoading := true, error := None)
  {
    var cleared := vm.(session := Session.ClearAuthToken(vm.session), isLoggedIn := false);
    GetPostList(cleared)
  }

  /** After logging out, nothing needs the server: a vote click raises the vote login
      prompt and sends nothing, and the floating button raises the post login prompt
      and stays on the screen. */
  lemma LogOutThenPrompted(vm: GalleryViewModel, postId: string, isUpvote: bool)
    ensures var out := LogOut(vm).vm;
      var voted := OnVoteClicked(out, postId, isUpvote);
      var fab := OnFabClicked(out);
      && voted.request == NoRequest && !voted.vm.isLoggedIn
      && voted.vm.showLoginPrompt && voted.vm.loginReason == LogInToVote
      && fab.showLoginPrompt && fab.loginReason == LogInToPost && fab.nav == vm.nav
  {
  }

  /** A fetch and its result: loading ends; a success shows one card per received
      post and no error, a failure keeps the earlier cards and always shows an error. */
  lemma LoadRoundTrip(vm: GalleryViewModel, outcome: Outcome<PostListResponse>)
    ensures var done := OnPostsLoaded(GetPostList(vm).vm, outcome);
      && !done.isLoading
      && (outcome.Success? ==> |done.posts| == |outcome.value.posts| && done.error == None)
      && (outcome.Failure? ==> done.posts == vm.posts && done.error.Some?)
  {
  }
}

=== FILE: post_list.dfy ===
/** The earlier post list screen: a nullable list of posts with loading and error
    cells. Its vote actions only report the new count to a caller-supplied callback;
    they never touch the list. */
module PostList {
  import opened Common
  import opened Models
  import Session

  /** `posts == None` means "not loaded yet", which differs from an empty feed. */
  datatype PostState = PostState(isLoading: bool, posts: Option<seq<Post>>, error: Option<string>)

  function Initial(): (s: PostState)
    ensures !s.isLoading && s.posts == None && s.error == None
  {
    PostState(false, None, None)
  }

  /** The request an action launches, if any. The vote request carries the token the
      call is made with. */
  datatype PostListRequest =
    | NoRequest
    | FetchPosts(fetchToken: Option<string>)
    | VoteRequest(postId: string, voteToken: string, isUpvote: bool)

  datatype PostListStep = PostListStep(state: PostState, request: PostListRequest)

  /** `getPostList` up to the request: raise loading, clear the error, fetch with the
      stored token. */
  function GetPostList(s: PostState, session: Session.Store): (step: PostListStep)
    ensures step.state == s.(isLoading := true, error := None)
    ensures step.request == FetchPosts(Session.GetAuthToken(session))
  {
    PostListStep(s.(isLoading := true, error := None), FetchPosts(Session.GetAuthToken(session)))
  }

  /** Construction runs `getPostList` on the initial state. */
  function Create(session: Session.Store): (step: PostListStep)
    ensures step.state == PostState(true, None, None)
    ensures step.request == FetchPosts(Session.GetAuthToken(session))
  {
    GetPostList(Initial(), session)
  }

  /** The list arriving: success stores it as received; failure stores the message,
      which may itself be absent, and keeps whatever list was there. */
  function OnPostsLoaded(s: PostState, outcome: Outcome<PostListResponse>): (s': PostState)
    ensures !s'.isLoading
    ensures outcome.Success? ==> s' == s.(isLoading := false, posts := Some(outcome.value.posts))
    ensures outcome.Failure? ==> s' == s.(isLoading := false, error := outcome.error.message)
  {
    match outcome
    case Success(response) => s.(isLoading := false, posts := Some(response.posts))
    case Failure(e) => s.(isLoading := false, error := e.message)
  }

  const NotLoggedIn: string := "User not logged in"

  /** The token every vote request is sent with: a fixed literal, not the stored one. */
  const SentVoteToken: string := "token"

  /** `upvotePost`/`downvotePost` up to the request. With no stored token the error is
      set and nothing is sent; otherwise the request goes out, with the literal token,
      and the state is left alone. */
  function VotePost(s: PostState, session: Session.Store, postId: string, isUpvote: bool): (step: PostListStep)
    ensures Session.GetAuthToken(session).None? <==> step.request.NoRequest?
    ensures Session.GetAuthToken(session).None? ==> step.state == s.(error := Some(NotLoggedIn))
    ensures Session.GetAuthToken(session).Some? ==>
      step.state == s && step.request == VoteRequest(postId, SentVoteToken, isUpvote)
  {
    if Session.GetAuthToken(session).None? then PostListStep(s.(error := Some(NotLoggedIn)), NoRequest)
    else PostListStep(s, VoteRequest(postId, SentVoteToken, isUpvote))
  }

  /** The state after a vote result and the count handed to the callback, if it ran. */
  datatype VoteResult = VoteResult(state: PostState, reported: Option<int>)

  /** A vote result arriving: success hands the count to the callback and changes no
      state; failure records the message and does not call back. */
  function OnVoteResult(s: PostState, outcome: Outcome<VoteResponse>): (r: VoteResult)
    ensures r.reported.Some? <==> outcome.Success?
    ensures outcome.Success? ==> r.state == s && r.reported.value == outcome.value.votes
    ensures outcome.Failure? ==> r.state == s.(error := outcome.error.message)
  {
    match outcome
    case Success(response) => VoteResult(s, Some(response.votes))
    case Failure(e) => VoteResult(s.(error := e.message), None)
  }

  /** `removePost`: drop the posts with the id from a loaded list; an unloaded list
      stays unloaded. */
  function RemovePost(s: PostState, postId: string): (s': PostState)
    ensures s'.isLoading == s.isLoading && s'.error == s.error
    ensures s'.posts.Some? <==> s.posts.Some?
    ensures s.posts.Some? ==>
      && IsSubsequence(s'.posts.value, s.posts.value)
      && (forall i :: 0 <= i < |s'.posts.value| ==> s'.posts.value[i].id != postId)
      && (forall i :: 0 <= i < |s.posts.value| && s.posts.value[i].id != postId ==> s.posts.value[i] in s'.posts.value)
      && (forall p :: multiset(s'.posts.value)[p] == if p.id == postId then 0 else multiset(s.posts.value)[p])
  {
    match s.posts
    case None => s
    case Some(posts) =>
      FilterNotIsSubsequence(posts, (p: Post) => p.id == postId);
      FilterNotCounts(posts, (p: Post) => p.id == postId);
      s.(posts := Some(FilterNot(posts, (p: Post) => p.id == postId)))
  }

  /** Removing the same post twice is removing it once. */
  lemma RemoveIdempotent(s: PostState, postId: string)
    ensures RemovePost(RemovePost(s, postId), postId) == RemovePost(s, postId)
  {
    if s.posts.Some? {
      FilterNotIdempotent(s.posts.value, (p: Post) => p.id == postId);
    }
  }

  /** A vote never changes the list: whatever the session and the result, the posts
      after the request and its result are the posts before. */
  lemma VoteKeepsPosts(s: PostState, session: Session.Store, postId: string, isUpvote: bool, outcome: Outcome<VoteResponse>)
    ensures var step := VotePost(s, session, postId, isUpvote);
      && step.state.posts == s.posts
      && OnVoteResult(step.state, outcome).state.posts == s.posts
  {
  }

  /** Whenever a vote request goes out, it carries the literal token, whatever token
      the session holds. */
  lemma VoteIgnoresStoredToken(s: PostState, token: string, postId: string, isUpvote: bool)
    requires token != SentVoteToken
    ensures var step := VotePost(s, Session.SaveAuthToken(Session.Fresh(), token), postId, isUpvote);
      step.request.VoteRequest? && step.request.voteToken != token
  {
  }

  /** A fetch and its result: loading ends; a success shows exactly the received
      list with no error, a failure keeps the earlier list and shows the message. */
  lemma LoadRoundTrip(s: PostState, session: Session.Store, outcome: Outcome<PostListResponse>)
    ensures var done := OnPostsLoaded(GetPostList(s, session).state, outcome);
      && !done.isLoading
      && (outcome.Success? ==> done.posts == Some(outcome.value.posts) && done.error == None)
      && (outcome.Failure? ==> done.posts == s.posts && done.error == outcome.error.message)
  {
  }
}

=== FILE: post_repository.dfy ===
/** The post repository: each operation makes one API call and emits exactly one
    `Result`, a success carrying the response or a failure carrying what was thrown.
    Listing posts also drops later posts whose image repeats an earlier one. */
module PostRepository {
  import opened Common
  import opened Models
  import opened Distinct

  /** `flow { emit(success(call())) }.catch { emit(failure(it)) }`: the single
      emission of a repository flow around one API call. */
  function Emit<T>(call: ApiCall<T>): (emitted: seq<Outcome<T>>)
    ensures |emitted| == 1
    ensures emitted[0].Success? <==> call.Returned?
    ensures call.Returned? ==> emitted[0].value == call.response
    ensures call.Threw? ==> emitted[0].error == call.error
  {
    match call
    case Returned(response) => [Success(response)]
    case Threw(e) => [Failure(e)]
  }

  /** `getPosts`: one emission; on success the API's list with repeated images
      removed (first post per image kept, order preserved); on failure the thrown
      error, unchanged. */
  method GetPosts(call: ApiCall<PostListResponse>) returns (emitted: seq<Outcome<PostListResponse>>)
    ensures |emitted| == 1
    ensures call.Threw? ==> emitted[0] == Failure(call.error)
    ensures call.Returned? ==> emitted[0].Success?
    ensures call.Returned? ==> emitted[0].value.posts == FirstOccurrences(call.response.posts)
  {
    match call
    case Threw(e) =>
      emitted := [Failure(e)];
    case Returned(response) =>
      var unique := DistinctByImage(response.posts);
      emitted := [Success(PostListResponse(unique))];
  }

  /** `upvote`: the vote count the API returns, or the error it threw. */
  function Upvote(call: ApiCall<VoteResponse>): (emitted: seq<Outcome<VoteResponse>>)
    ensures |emitted| == 1
    ensures call.Returned? ==> emitted[0] == Success(call.response)
    ensures call.Threw? ==> emitted[0] == Failure(call.error)
  {
    Emit(call)
  }

  /** `downvote`: the vote count the API returns, or the error it threw. */
  function Downvote(call: ApiCall<VoteResponse>): (emitted: seq<Outcome<VoteResponse>>)
    ensures |emitted| == 1
    ensures call.Returned? ==> emitted[0] == Success(call.response)
    ensures call.Threw? ==> emitted[0] == Failure(call.error)
  {
    Emit(call)
  }

  /** `newPost`: the API's response to the creation, or the error it threw. */
  function NewPost(call: ApiCall<PostResponse>): (emitted: seq<Outcome<PostResponse>>)
    ensures |emitted| == 1
    ensures call.Returned? ==> emitted[0] == Success(call.response)
    ensures call.Threw? ==> emitted[0] == Failure(call.error)
  {
    Emit(call)
  }

  /** Reading the single emission back recovers the API call exactly: no response
      or error is altered or lost on the way through the repository. */
  lemma EmitRoundTrip<T>(call: ApiCall<T>)
    ensures match Emit(call)[0]
      case Success(v) => call == Returned(v)
      case Failure(e) => call == Threw(e)
  {
  }
}

=== FILE: session.dfy ===
/** The session manager: one preference slot under the key `AUTH_TOKEN` holding
    the bearer token, or nothing when the user is signed out. */
module Session {
  import opened Common

  datatype Store = Store(authToken: Option<string>)

  /** A store on first launch: no token has ever been saved. */
  function Fresh(): (s: Store)
    ensures GetAuthToken(s) == None
  {
    Store(None)
  }

  function GetAuthToken(s: Store): Option<string> {
    s.authToken
  }

  /** Stores `token` under the single key, replacing whatever was there. */
  function SaveAuthToken(s: Store, token: string): (s': Store)
    ensures GetAuthToken(s') == Some(token)
  {
    Store(Some(token))
  }

  /** Removes the token. */
  function ClearAuthToken(s: Store): (s': Store)
    ensures GetAuthToken(s') == None
  {
    Store(None)
  }

  /** There is a single key, so a second save overwrites the first. */
  lemma SaveOverwrites(s: Store, first: string, second: string)
    ensures SaveAuthToken(SaveAuthToken(s, first), second) == SaveAuthToken(s, second)
    ensures GetAuthToken(SaveAuthToken(SaveAuthToken(s, first), second)) == Some(second)
  {
  }

  /** Clearing an empty store leaves it empty, and clearing twice is clearing once. */
  lemma ClearIdempotent(s: Store)
    ensures GetAuthToken(s) == None ==> ClearAuthToken(s) == s
    ensures ClearAuthToken(ClearAuthToken(s)) == ClearAuthToken(s)
  {
  }

  /** The token is the whole state: two stores that answer `GetAuthToken` alike are equal. */
  lemma TokenIsTheWholeState(s: Store, t: Store)
    requires GetAuthToken(s) == GetAuthToken(t)
    ensures s == t
  {
  }
}

=== FILE: text.dfy ===
/** The Kotlin string operations the screens use: `isBlank`, `endsWith(..., ignoreCase = true)`,
    `contains`, and the decimal rendering of an `Int` in a string template. */
module Text {

  // ---------------------------------------------------------------------------
  // isBlank
  // ---------------------------------------------------------------------------

  /** Kotlin's `Char.isWhitespace()` on the JVM: Java's `isWhitespace` (the ASCII
      controls TAB..CR and FS..US, plus the space, line and paragraph separators)
      together with Java's `isSpaceChar` (which adds the no-break spaces). */
  predicate IsWhitespace(c: char) {
    || ('\t' <= c <= '\r')
    || ('\U{1C}' <= c <= '\U{1F}')
    || c == ' '
    || c == '\U{A0}'
    || c == '\U{1680}'
    || ('\U{2000}' <= c <= '\U{200A}')
    || c == '\U{2028}' || c == '\U{2029}'
    || c == '\U{202F}' || c == '\U{205F}' || c == '\U{3000}'
  }

  /** Kotlin's `String.isBlank()`: empty or whitespace only. */
  predicate IsBlank(s: string) {
    forall i :: 0 <= i < |s| ==> IsWhitespace(s[i])
  }

  // ---------------------------------------------------------------------------
  // Case-insensitive comparison
  // ---------------------------------------------------------------------------

  /** `Char.uppercaseChar()` for ASCII letters and the two non-ASCII letters whose
      upper case is an ASCII letter (dotless i and long s); other characters are
      left as they are. */
  function UppercaseChar(c: char): char {
    if 'a' <= c <= 'z' then (c as int - 32) as char
    else if c == '\U{131}' then 'I'
    else if c == '\U{17F}' then 'S'
    else c
  }

  /** `Char.lowercaseChar()` for ASCII letters and the two non-ASCII letters whose
      lower case is an ASCII letter (dotted capital I and the Kelvin sign). */
  function LowercaseChar(c: char): char {
    if 'A' <= c <= 'Z' then (c as int + 32) as char
    else if c == '\U{130}' then 'i'
    else if c == '\U{212A}' then 'k'
    else c
  }

  /** Kotlin's `Char.equals(other, ignoreCase = true)`: equal, equal after upper-casing
      both, or equal after lower-casing both upper-cased characters. */
  predicate CharEqualsIgnoreCase(a: char, b: char) {
    || a == b
    || UppercaseChar(a) == UppercaseChar(b)
    || LowercaseChar(UppercaseChar(a)) == LowercaseChar(UppercaseChar(b))
  }

  /** Kotlin's `String.endsWith(suffix, ignoreCase = true)`. */
  predicate EndsWithIgnoreCase(s: string, suffix: string) {
    && |suffix| <= |s|
    && forall i :: 0 <= i < |suffix| ==> CharEqualsIgnoreCase(s[|s| - |suffix| + i], suffix[i])
  }

  // ---------------------------------------------------------------------------
  // contains
  // ---------------------------------------------------------------------------

  /** `sub` occurs in `s` starting at index `i`. */
  predicate OccursAt(s: string, sub: string, i: int) {
    0 <= i && i + |sub| <= |s| && s[i..i + |sub|] == sub
  }

  /** Kotlin's `String.contains(other)`, as a left-to-right scan. */
  predicate Contains(s: string, sub: string)
    decreases |s|
  {
    && |sub| <= |s|
    && (s[..|sub|] == sub || (0 < |s| && Contains(s[1..], sub)))
  }

  /** The scan finds `sub` exactly when `sub` occurs somewhere in `s`. */
  lemma {:induction false} ContainsIffOccurs(s: string, sub: string)
    ensures Contains(s, sub) <==> exists i :: OccursAt(s, sub, i)
    decreases |s|
  {
    if |sub| <= |s| {
      if s[..|sub|] == sub {
        assert OccursAt(s, sub, 0);
      } else {
        assert 0 < |s|;
        ContainsIffOccurs(s[1..], sub);
        if Contains(s[1..], sub) {
          var i :| OccursAt(s[1..], sub, i);
          assert s[1..][i..i + |sub|] == s[i + 1..i + 1 + |sub|];
          assert OccursAt(s, sub, i + 1);
        }
        if i :| OccursAt(s, sub, i) {
          assert i != 0;
          assert s[1..][i - 1..i - 1 + |sub|] == s[i..i + |sub|];
          assert OccursAt(s[1..], sub, i - 1);
        }
      }
    } else {
      assert forall i :: !OccursAt(s, sub, i);
    }
  }

  /** A string built around `sub` contains it. */
  lemma ContainsMiddle(before: string, sub: string, after: string)
    ensures Contains(before + sub + after, sub)
  {
    var s := before + sub + after;
    assert s[|before|..|before| + |sub|] == sub;
    assert OccursAt(s, sub, |before|);
    ContainsIffOccurs(s, sub);
  }

  // ---------------------------------------------------------------------------
  // Decimal rendering of an Int in a string template
  // ---------------------------------------------------------------------------

  function DigitChar(d: nat): (c: char)
    requires d < 10
  {
    ('0' as int + d) as char
  }

  predicate IsDigit(c: char) {
    '0' <= c <= '9'
  }

  function DigitValue(c: char): (d: nat)
    requires IsDigit(c)
    ensures d < 10
  {
    c as int - '0' as int
  }

  /** The decimal digits of `n`, most significant first, with no leading zero. */
  function NatToDecimal(n: nat): (r: string)
    ensures |r| >= 1
    ensures forall i :: 0 <= i < |r| ==> IsDigit(r[i])
    ensures n > 0 ==> r[0] != '0'
    decreases n
  {
    if n < 10 then [DigitChar(n)]
    else NatToDecimal(n / 10) + [DigitChar(n % 10)]
  }

  /** The number a string of decimal digits denotes. */
  function DecimalValue(s: string): nat
    requires forall i :: 0 <= i < |s| ==> IsDigit(s[i])
    decreases |s|
  {
    if |s| == 0 then 0
    else 10 * DecimalValue(s[..|s| - 1]) + DigitValue(s[|s| - 1])
  }

  /** Rendering a number and reading it back gives the number. */
  lemma {:induction false} DecimalRoundTrip(n: nat)
    ensures DecimalValue(NatToDecimal(n)) == n
    decreases n
  {
    if n >= 10 {
      var r := NatToDecimal(n);
      assert r[..|r| - 1] == NatToDecimal(n / 10);
      DecimalRoundTrip(n / 10);
    }
  }

  /** Kotlin's `Int.toString()` (the value of `"$n"`). */
  function IntToDecimal(n: int): (r: string)
    ensures |r| >= 1
    ensures n >= 0 ==> r == NatToDecimal(n)
    ensures n < 0 <==> r[0] == '-'
  {
    if n < 0 then "-" + NatToDecimal(-n) else NatToDecimal(n)
  }
}
